=== FILE: README.md ===
# Performance-chart core in Dafny

This project models the computational core of a small performance-monitoring
dashboard. The dashboard loads a CSV of cpu, memory and connection samples
and plots them over elapsed time. The model covers five parts:

- **aggregation engine** (`Aggregation`, from `src/utils/aggregation.tsx`):
  - groups time-ordered samples into fixed-width windows of one of eight
    interval sizes;
  - reduces each maximal run of samples in one window to one record. The
    record carries avg/min/max per metric, a sample count and time labels;
  - says which interval sizes are worth offering for a duration.
- **scale and tick advisor** (`DataProcessing`, from
  `src/utils/dataProcessing.tsx`):
  - the nice-number tick ladder and the point stride;
  - the threshold ladders that pick a time scale;
  - the three label renderers: elapsed time, axis label and tick label.
- **hour-range selector** (`TimeRangeSelector`, from
  `src/TimeRangeSelector.tsx`):
  - the nearest-record search;
  - the number of hours the data spans;
  - the start/end/reset/quick-select state machine with its range
    reports;
  - the whole-hour duration label.
- **scale selector** (`TimeScaleSelector`, from
  `src/TimeScaleSelector.tsx`): the list of offered scales and the duration
  label.
- **CSV transform** (`InputView`, from `src/InputView.tsx`): the upload's text
  becomes numbered records.

Four supporting modules hold shared vocabulary:

- `Wrappers`: `Option`.
- `Text`: digits, `split`/`join` and JavaScript's `trim`.
- `Numeric`:
  - ceiling;
  - `Math.round`, modelled as the floor of `x + 1/2`;
  - `toFixed(2)`, an idealised round-half-away-from-zero to hundredths;
  - sum, min, max and mean.
- `Labels`: a label is a list of unit fields such as "3h 5m" or "1h:05", and
  a reader parses a label back into seconds. Every renderer is specified by
  what its label reads back as. Lossless labels read back to exactly the
  given seconds. Lossy ones read back to the seconds truncated to the minute
  or the hour. The read-back fixes the amount a label denotes. The layout
  (which units appear, in what order, padded or not) is stated separately,
  on each renderer's field list (`TimeRangeFields`, `DayTickFields`,
  `HourTickFields`, `MinuteTickFields`, `TickFields`, `ElapsedFields`,
  `DurationParts`) and on `FormatHours` literally.

`aggregateData` is specified as a partition of the input into maximal
same-window runs (`Group`). `Group` is proved to be the only such
partition. A method that follows the source loop line by line
(`AggregateLoop`) is proved to compute the same records. Elapsed seconds and the
durations that labels show are `nat`. The total durations that are only
compared with thresholds are `real`. Metric values are `real`, and `parseFloat` is a parameter of type
`string -> Option<real>`. The hour inputs' `parseInt` is not a parameter:
its outcome arrives already parsed, as the `Option<int>` carried by the
`StartTyped` and `EndTyped` events, with `None` standing for `NaN`.

## Model

| member | source | states |
|---|---|---|
| Aggregation.IntervalSeconds | src/utils/aggregation.tsx:25-37 | every interval width is a positive whole number of minutes |
| Aggregation.AllIntervalsTable | src/utils/aggregation.tsx:54 | the interval list holds all eight intervals, each once, strictly widening |
| Aggregation.FilterOffered | src/utils/aggregation.tsx:58-62 | the filter keeps an interval iff it is in the list and its window count `ceil(total/I)` is between 5 and 500 |
| Aggregation.FilterOfferedIncreasing | src/utils/aggregation.tsx:58-62 | filtering keeps the list's narrowest-first order (an order-preserving subsequence) |
| Aggregation.AvailableIntervals | src/utils/aggregation.tsx:53-62 | an interval is offered iff `5 <= ceil(total/I) <= 500`, and the result is listed narrowest first without repeats |
| Aggregation.NothingOffered | src/utils/aggregation.tsx:53-62 | no interval is offered iff the duration is at most 240 s or above 7,200,000 s |
| Aggregation.OfferedWhen | src/utils/aggregation.tsx:60-61 | an interval is offered whenever `4I < total <= 500I` |
| Aggregation.SomeOffered | src/utils/aggregation.tsx:53-62 | for every duration in (240, 7,200,000] some interval is offered |
| Aggregation.NoneOfferedOutside | src/utils/aggregation.tsx:60-61 | outside (240, 7,200,000] no interval passes the filter |
| Aggregation.Values | src/utils/aggregation.tsx:145-147 | each metric column has one value per sample of the bucket, the j-th being that metric of the j-th sample |
| Aggregation.BucketStart | src/utils/aggregation.tsx:90-91 | a sample's window start is at or before it, and less than one width before it |
| Aggregation.BucketStartAligned | src/utils/aggregation.tsx:90-91 | every window start is a multiple of the width |
| Aggregation.BucketStartMonotone | src/utils/aggregation.tsx:90-91 | a later sample never has an earlier window start |
| Aggregation.PartitionAppendRun | src/utils/aggregation.tsx:94-106 | a sample in a new window opens a new run and the partition still covers the input |
| Aggregation.PartitionExtendLast | src/utils/aggregation.tsx:107-112 | a sample in the open run's window joins that run and the partition still covers the input |
| Aggregation.Group | src/utils/aggregation.tsx:89-113 | the runs concatenate to the input, each run is non-empty and within one window, neighbouring runs lie in different windows, and there are no runs exactly when there is no input |
| Aggregation.FlattenEmpty | src/utils/aggregation.tsx:79 | non-empty runs concatenate to nothing iff there are none |
| Aggregation.PartitionDropLast | src/utils/aggregation.tsx:89-113 | removing the last sample from a run partition leaves a run partition of the shorter input |
| Aggregation.GroupAppend | src/utils/aggregation.tsx:94-106 | a sample outside the last run's window adds a run of its own |
| Aggregation.GroupExtend | src/utils/aggregation.tsx:107-112 | a sample inside the last run's window is appended to that run |
| Aggregation.UniqueNewRun | src/utils/aggregation.tsx:94-106 | a partition whose last run is the single new sample is the grouping |
| Aggregation.GroupJoinsLast | src/utils/aggregation.tsx:107-112 | a sample in the last run's window extends that run in the grouping |
| Aggregation.SplitLastRun | src/utils/aggregation.tsx:107-112 | a run of two or more samples is the shorter run plus its last sample, both in one window |
| Aggregation.GroupUnique | src/utils/aggregation.tsx:89-113 | the maximal-run partition is unique: any partition into non-empty single-window runs with differing neighbours is the grouping |
| Aggregation.TimeFields | src/utils/aggregation.tsx:176-187 | the `formatTime` fields are hours, minutes and seconds with only leading zero fields dropped, minutes and seconds below 60, and they add up to the seconds |
| Aggregation.HoursMinutesSeconds | src/utils/aggregation.tsx:177-179 | hours, minutes and seconds recompose the input |
| Aggregation.FormatTime | src/utils/aggregation.tsx:176-187 | a `formatTime` label reads back as exactly the given seconds |
| Aggregation.TimeRangeFields | src/utils/aggregation.tsx:189-197 | from one hour on the label starts with the total hours marked "h", followed by a second field exactly when the minutes within the hour are non-zero, that field being unmarked two-digit minutes below 60 ("1h:05"); below one hour it is the single field of whole minutes marked "m"; at most two fields, summing to the start truncated to the minute |
| Aggregation.FormatTimeRange | src/utils/aggregation.tsx:189-197 | the axis label reads back as the start truncated to the minute, whatever the end argument |
| Aggregation.ProcessBucket | src/utils/aggregation.tsx:153-172 | the record carries the bucket number, the window start and the sample count |
| Aggregation.BucketLabels | src/utils/aggregation.tsx:149-151 | the start and end labels read back as the window's start and end, and the time label as the start to the minute |
| Aggregation.BucketFigures | src/utils/aggregation.tsx:160-170 | each average and cpu figure is the nearest hundredth of its column's mean/max/min, ties away from zero, and each memory and connection max/min is the nearest integer to the column's max/min, halves going up; cpu figures satisfy `cpuMin <= cpuAvg <= cpuMax`; `memMin <= memMax` and `connMin <= connMax` |
| Aggregation.MapSeq | src/utils/aggregation.tsx:145-147 | mapping keeps the length |
| Aggregation.MapAt | src/utils/aggregation.tsx:145-147 | the k-th mapped element is the function of the k-th element |
| Aggregation.MapSnoc | src/utils/aggregation.tsx:95-124 | mapping a sequence with one more element appends one more result |
| Aggregation.Buckets | src/utils/aggregation.tsx:95-122 | one bucket per run |
| Aggregation.BucketsAt | src/utils/aggregation.tsx:95-101 | bucket k holds run k, numbered k, starting at the window of the run's first sample |
| Aggregation.BucketsSnoc | src/utils/aggregation.tsx:95-106 | a new run becomes a bucket numbered after the others and starting at its window |
| Aggregation.AggregateData | src/utils/aggregation.tsx:65-127 | the result is empty iff the input is, and has one record per maximal run |
| Aggregation.ReducedAt | src/utils/aggregation.tsx:95-101 | the k-th reduced record of the runs is the reduction of the bucket built from the k-th run, numbered k and starting at its first sample's window |
| Aggregation.AggregateReducesRuns | src/utils/aggregation.tsx:89-124 | the k-th record is exactly `processBucket` of the k-th maximal run, as bucket number k starting at that run's window |
| Aggregation.AggregateWindows | src/utils/aggregation.tsx:87-124 | the k-th record has index k and counts the k-th run (at least one sample); its start is a multiple of the width and the window start of every sample in its run; neighbouring records have different starts |
| Aggregation.AggregateRecords | src/utils/aggregation.tsx:160-170 | every record has `cpuMin <= cpuAvg <= cpuMax`, `memMin <= memMax` and `connMin <= connMax` |
| Aggregation.FlattenLength | src/utils/aggregation.tsx:89-124 | the runs' lengths add up to the length of their concatenation |
| Aggregation.TotalPointsSnoc | src/utils/aggregation.tsx:115-124 | one more record adds its sample count to the total |
| Aggregation.TotalPointsOfRecords | src/utils/aggregation.tsx:172 | records that count their bucket's samples add up to the runs' total length |
| Aggregation.AggregateCountsEverySample | src/utils/aggregation.tsx:89-124 | the records' `dataPoints` add up to the number of input samples |
| Aggregation.IncreaseAppend | src/utils/aggregation.tsx:94-106 | a new run in a later window keeps run windows strictly increasing |
| Aggregation.IncreaseExtend | src/utils/aggregation.tsx:107-112 | growing the last run keeps run windows strictly increasing |
| Aggregation.GroupWindowsIncrease | src/utils/aggregation.tsx:89-113 | on input sorted by time the runs' windows strictly increase |
| Aggregation.AggregateIncreasing | src/utils/aggregation.tsx:94-105 | on input sorted by time the records' starts strictly increase |
| Aggregation.MemMinMayExceedMemAvg | src/utils/aggregation.tsx:164-166 | one sample of memory 100.5 gives `memMin` 101 above `memAvg` 100.5: min ≤ avg does not hold for memory |
| Aggregation.ReducedSnoc | src/utils/aggregation.tsx:95-101 | the reduced records of the runs are those of all but the last run plus the last run's record |
| Aggregation.WalkNewBucket | src/utils/aggregation.tsx:94-106 | the new-window branch closes the open bucket, emits its record, and keeps the loop invariant |
| Aggregation.WalkSameBucket | src/utils/aggregation.tsx:107-112 | the same-window branch (and the first sample) extends the open bucket and keeps the loop invariant |
| Aggregation.WalkEnd | src/utils/aggregation.tsx:115-126 | after the loop, emitting the open bucket gives the records of the grouping |
| Aggregation.WalkInvariant | src/utils/aggregation.tsx:89-113 | after any prefix the open bucket is the last maximal run and the earlier runs' records have been emitted in order |
| Aggregation.WalkAggregates | src/utils/aggregation.tsx:79-126 | the loop followed by the final flush computes the specified records |
| Aggregation.WalkSamples | src/utils/aggregation.tsx:85-113 | the imperative loop ends in the state the functional walk describes |
| Aggregation.AggregateLoop | src/utils/aggregation.tsx:65-127 | the imperative `aggregateData` returns exactly the specified records |
| DataProcessing.DayClock | src/utils/dataProcessing.tsx:3-6 | days, hours, minutes and seconds recompose the input, with hours below 24 and minutes below 60 |
| DataProcessing.DayClockFields | src/utils/dataProcessing.tsx:3-6 | the four fields are whole days, hours below 24, minutes and seconds below 60, adding up to the seconds |
| DataProcessing.ElapsedFields | src/utils/dataProcessing.tsx:2-16 | the label's fields are a suffix of days/hours/minutes/seconds that omits exactly the leading zero fields (inner zeros kept) and adds up to the seconds |
| DataProcessing.FormatElapsedTime | src/utils/dataProcessing.tsx:2-16 | an elapsed-time label reads back as exactly the given seconds |
| DataProcessing.EffectiveScale | src/utils/dataProcessing.tsx:25-34 | an explicit scale is kept; 'auto' becomes days from 172800 s, hours from 14400 s, minutes below, never seconds |
| DataProcessing.TimeLabelFields | src/utils/dataProcessing.tsx:36-50 | the days label is the hours of the day, preceded by the whole days iff there is at least one ("2d 0h", "5h"); the hours label is the minutes alone below one hour ("30m"), otherwise exactly two fields, total hours `floor(s/3600)` then the minutes within the hour, zero included ("1h 0m"); the minutes label is the total minutes `floor(s/60)`; every field is marked, and they add up to the seconds truncated to the scale's resolution |
| DataProcessing.FormatTimeLabel | src/utils/dataProcessing.tsx:19-51 | an axis label reads back as the seconds truncated to the hour on the days scale and to the minute otherwise |
| DataProcessing.DaysAbove | src/utils/dataProcessing.tsx:61-62 | a whole number of days at or above x days is at or above `ceil(x)` days |
| DataProcessing.NiceInterval | src/utils/dataProcessing.tsx:61-84 | the target interval is on the nice ladder, at least the seconds per tick, and the least such ladder value |
| DataProcessing.NiceIntervalMonotone | src/utils/dataProcessing.tsx:61-84 | more seconds per tick never gives a smaller target interval |
| DataProcessing.TickInterval | src/utils/dataProcessing.tsx:54-89 | the stride is at least 1 and is the nearest whole number (halves up) to `target * dataLength / totalSeconds`, or 1 when that is below 1.5 |
| DataProcessing.AtLeastOneRounded | src/utils/dataProcessing.tsx:88 | `max(1, Math.round(x))` is at least 1 and within a half of x unless it is 1 |
| DataProcessing.DayTickFields | src/utils/dataProcessing.tsx:94-100 | the long-tier label is the days field then the hours-of-day field, in that order and unpadded; the days field appears iff there is at least one whole day, the hours field iff it is non-zero or there are no days (so "0h" is kept); together they add up to the seconds truncated to the hour |
| DataProcessing.HourTickFields | src/utils/dataProcessing.tsx:103-107 | the medium-tier label starts with the total hours `floor(s/3600)` marked "h"; a second field, two-digit minutes marked "m", appears iff the minutes within the hour are non-zero; the fields add up to the seconds truncated to the minute |
| DataProcessing.MinuteTickFields | src/utils/dataProcessing.tsx:110-113 | from one minute on the short-tier label starts with the total minutes `floor(s/60)`, followed iff the remaining seconds are non-zero by an unpadded seconds field; below one minute it is the seconds alone; the fields add up to exactly the seconds |
| DataProcessing.TickFields | src/utils/dataProcessing.tsx:92-114 | the tier is chosen by the total duration: from 172800 s only day and hour fields, from 7200 s total hours first, below that total minutes (or seconds under a minute) first, at most two fields below 172800 s; the fields add up to the seconds truncated to the tier's resolution, and no part after the first is zero; each tier's fields are exactly that tier's field list |
| DataProcessing.FormatTickLabel | src/utils/dataProcessing.tsx:92-114 | a tick label reads back as the seconds truncated to the hour, to the minute, or exactly, by tier |
| DataProcessing.TickLabelAtZero | src/utils/dataProcessing.tsx:110-112 | in the short tier, 0 s is labelled "0s" |
| DataProcessing.DetermineTimeScale | src/utils/dataProcessing.tsx:117-122 | days iff at least 172800 s, hours iff in [14400, 172800), minutes iff in [600, 14400), seconds iff below 600 |
| DataProcessing.DetermineTimeScaleMonotone | src/utils/dataProcessing.tsx:117-122 | a longer duration never gives a finer scale |
| DataProcessing.AutoScaleAgrees | src/utils/dataProcessing.tsx:117-122 | 'auto' in `formatTimeLabel` picks days and hours exactly where `determineTimeScale` does, and minutes where the latter picks minutes or seconds |
| TimeRangeSelector.Scan | src/TimeRangeSelector.tsx:25-36 | the loop from any record on returns the first later record at or past the target, or else the first record nearest it |
| TimeRangeSelector.FindIndex | src/TimeRangeSelector.tsx:21-37 | the result is a record index; it is the smallest i ≥ 1 at or past the target when one exists, else the first index of least distance to the target |
| TimeRangeSelector.FindIndexBySeconds | src/TimeRangeSelector.tsx:21-37 | the loop with its early return computes that index |
| TimeRangeSelector.FindIndexSkipsFirst | src/TimeRangeSelector.tsx:23-33 | on sorted data of two or more records a target at or before the first record selects record 1, not 0 |
| TimeRangeSelector.FindIndexPastEnd | src/TimeRangeSelector.tsx:22-36 | on sorted data a target past the end selects a record at the last record's time |
| TimeRangeSelector.MaxHours | src/TimeRangeSelector.tsx:15-16 | `maxHours` is the last record's elapsed time in hours rounded up |
| TimeRangeSelector.StartValue | src/TimeRangeSelector.tsx:107 | a failed parse starts at 0; any number is taken as typed |
| TimeRangeSelector.EndValue | src/TimeRangeSelector.tsx:123 | a failed parse and a typed 0 both end at `maxHours`; any other number is taken as typed |
| TimeRangeSelector.ReportFor | src/TimeRangeSelector.tsx:39-59 | the reported indices are record indices |
| TimeRangeSelector.Step | src/TimeRangeSelector.tsx:39-73 | start changes apply iff not after the end and end changes iff not before the start, reporting the searched indices; a rejected change alters and reports nothing; reset gives (0, maxHours) reporting (0, len-1); quick-select gives (0, min(h, maxHours)) reporting start index 0 and, as end index, the record searched for at the new end hour; start ≤ end is preserved |
| TimeRangeSelector.RunKeepsRange | src/TimeRangeSelector.tsx:39-73 | after any sequence of events start ≤ end still holds and every reported index is a record index |
| TimeRangeSelector.InitialRangeOrdered | src/TimeRangeSelector.tsx:15-19 | the initial range is ordered and covers the last record |
| TimeRangeSelector.FormatHours | src/TimeRangeSelector.tsx:78-87 | a whole number of hours h is labelled as the decimal digits of h followed by "h", which reads back as h hours |
| TimeRangeSelector.FormatHoursZero | src/TimeRangeSelector.tsx:79 | zero hours is labelled "0h" |
| TimeRangeSelector.DurationLabel | src/TimeRangeSelector.tsx:75-94 | the "Duration:" caption of an ordered range is the decimal hours from start to end followed by "h", and reads back as that many hours |
| TimeScaleSelector.AvailableScales | src/TimeScaleSelector.tsx:16-32 | 'auto' then 'minutes' first; 'hours' iff at least 1800 s; 'days' iff at least 43200 s, and then after 'hours'; every entry carries its title ("Auto", "Minutes", "Hours", "Days"); none disabled and none twice |
| TimeScaleSelector.AvailableScalesGrow | src/TimeScaleSelector.tsx:16-32 | a longer duration offers every scale a shorter one does |
| TimeScaleSelector.DurationFields | src/TimeScaleSelector.tsx:34-47 | the duration parts are well formed and add up to the seconds |
| TimeScaleSelector.DurationSplit | src/TimeScaleSelector.tsx:40-44 | the seconds of the four parts are the d/h/m parts plus the seconds part |
| TimeScaleSelector.DurationDescending | src/TimeScaleSelector.tsx:40-44 | the parts come in the order days, hours, minutes, seconds |
| TimeScaleSelector.DurationShowsNonZero | src/TimeScaleSelector.tsx:41-43 | each day, hour and minute part appears iff its value is non-zero |
| TimeScaleSelector.DurationShowsSeconds | src/TimeScaleSelector.tsx:44 | the seconds part appears iff it is non-zero or no other part appears |
| TimeScaleSelector.DurationFromClock | src/TimeScaleSelector.tsx:35-38 | every part is one of the four clock fields |
| TimeScaleSelector.DurationParts | src/TimeScaleSelector.tsx:40-46 | the four properties above together |
| TimeScaleSelector.FormatDuration | src/TimeScaleSelector.tsx:34-47 | the space-joined duration label reads back as exactly the given seconds |
| TimeScaleSelector.FormatDurationZero | src/TimeScaleSelector.tsx:44 | zero seconds is labelled "0s" |
| InputView.NonBlank | src/InputView.tsx:21 | the filter keeps no more lines than it is given and no blank line |
| InputView.NonBlankKeeps | src/InputView.tsx:21 | a line is kept iff it is one of the lines and does not trim to nothing |
| InputView.NonBlankConcat | src/InputView.tsx:21 | filtering distributes over concatenation (order is kept) |
| InputView.Rows | src/InputView.tsx:22-29 | one record per kept line, the k-th numbered k |
| InputView.ParseCsv | src/InputView.tsx:17-30 | records are numbered densely from 0 |
| InputView.HeaderIgnored | src/InputView.tsx:18-20 | the first line is discarded whatever it says, and text without a line break gives no records |
| InputView.LinesAppend | src/InputView.tsx:18-20 | appending a line to the text appends it to the lines after the header |
| InputView.NonBlankSnoc | src/InputView.tsx:21 | a trailing line survives the filter iff it is not blank |
| InputView.RowsSnoc | src/InputView.tsx:22-25 | a trailing kept line becomes a record numbered after the others |
| InputView.AppendLine | src/InputView.tsx:17-30 | appending a line adds exactly one record for it, numbered next, when it is not blank, and nothing when it is |
| InputView.CountSnoc | src/InputView.tsx:21 | counting non-blank line positions up to one more line adds one iff that line is not blank |
| InputView.NonBlankCountFrom | src/InputView.tsx:20-21 | the lines kept from `lines[1..n]` are as many as the positions 1 ≤ k < n whose line is not blank |
| InputView.CountsNonBlankLines | src/InputView.tsx:18-25 | the number of records equals the number of line positions after the header whose line is not blank, counted over the raw `split` result |
| InputView.RecordsFromLines | src/InputView.tsx:18-29 | every record k is the parse, numbered k, of some non-blank line after the header |
| InputView.SameAfterFirst | src/InputView.tsx:23-28 | only the fields after the first are read |
| InputView.TimestampIgnored | src/InputView.tsx:23 | changing the timestamp field changes no record |
| InputView.MissingFieldsAreZero | src/InputView.tsx:23-28 | a line with no comma reads as 0 for all three metrics |
| InputView.UnparsableIsZero | src/InputView.tsx:26-28 | a field that does not parse reads as 0 |
| Text.Split | src/InputView.tsx:18-23 | `split` gives at least one piece and no piece contains the separator |
| Text.JoinSplit | src/InputView.tsx:18 | joining the pieces of a split with the separator gives the text back |
| Text.SplitConcat | src/InputView.tsx:18 | splitting `s + sep + t` splits s and t separately |
| Text.Trim | src/InputView.tsx:21 | `trim` gives the empty string iff the line is all whitespace |
| Numeric.JsRound | src/utils/aggregation.tsx:165-170 | `Math.round(x)` is within a half of x, halves going up |
| Numeric.ToFixed2 | src/utils/aggregation.tsx:160-162 | `toFixed(2)` gives the nearest hundredth of x, an exact tie going away from zero |
| Numeric.NearestHundredthUnique | src/utils/aggregation.tsx:160-162 | the nearest hundredth with ties away from zero is unique, so the contract of `toFixed(2)` determines its result |
| Numeric.ToFixed2Ties | src/utils/aggregation.tsx:160-162 | 0.125 rounds to 0.13 and -0.125 to -0.13 |
| Numeric.ToFixed2Monotone | src/utils/aggregation.tsx:160-162 | `toFixed(2)` preserves order, hence `cpuMin <= cpuAvg <= cpuMax` |
| Numeric.Mean | src/utils/aggregation.tsx:160-168 | the mean times the number of values is their sum |
| Numeric.MaxOf | src/utils/aggregation.tsx:161-169 | `Math.max(...xs)` is one of the values and at least every value |
| Numeric.MinOf | src/utils/aggregation.tsx:162-170 | `Math.min(...xs)` is one of the values and at most every value |
| Numeric.MeanBetween | src/utils/aggregation.tsx:160-170 | the mean lies between the minimum and the maximum |
| Numeric.Ceil | src/TimeRangeSelector.tsx:16 | `Math.ceil(x)` is the least integer at or above x |

## Left out

- Reading the file (`FileReader`, the file input, DOM events) in
  `src/InputView.tsx`, and all React rendering, hooks and state batching.
  The chart components and `App.tsx` only render, and `Chartviewselector.tsx`
  only calls `getAvailableIntervals` and `getIntervalLabel`.
- IEEE-754 arithmetic: metrics are exact reals. `toFixed(2)` is an idealised
  half-up rounding to hundredths and ignores the binary representation. NaN
  is modelled only as the `None` that `parseFloat` and `parseInt` give, which
  `|| 0` turns into 0. The argument-count limit of `Math.max(...spread)` is
  not modelled.
- The sample fields `time`, `timeLabel` and `fullTime` are display strings
  that `aggregateData` never reads.
- A `\r` before the line break (CRLF files) is not treated specially; the
  source does not treat it either, except that `trim` removes it.
- Negative elapsed seconds. The CSV loader produces no `elapsedSeconds` at
  all; the model assumes that whoever supplies the samples to
  `aggregateData` and the timeline functions gives whole, non-negative
  elapsed seconds, and so they are `nat`.
- TimeScaleSelector.DurationFields: takes whole seconds (`nat`), while
  TimeScaleSelector.AvailableScales takes the real `totalSeconds`. The
  scale list only compares the total with 1800 and 43200, which makes sense
  for any real. The duration label is modelled on whole seconds only: for
  a fractional total, `seconds % 60` in `src/TimeScaleSelector.tsx:38` keeps
  the fraction and the label would show a fractional seconds part, which
  is not modelled.
- DataProcessing.TickInterval: requires non-zero `totalSeconds` and
  `maxTicks`. For zero the source divides by zero and goes on with
  `Infinity`/`NaN`, which exact reals cannot express.
- The percentage display (`src/TimeRangeSelector.tsx:76`), which is
  floating-point text only.
- The range slider's handler (`src/TimeRangeSelector.tsx:140-144`). It calls
  `setStartHour(0)` and then `handleEndChange` with the stale start hour, so
  its effect depends on React's state batching. The slider's `parseInt`
  cannot fail on a range input.
- TimeRangeSelector.FormatHours: only whole hours are modelled. Every value
  the component passes (`endHour - startHour` of parsed integers) is whole,
  so the fractional-minutes branch (`src/TimeRangeSelector.tsx:80-85`) is
  never taken.
- TimeRangeSelector.Step: `QuickSelect` takes any number of hours, while the
  buttons offer only 1, 2, 6 and 12.
- Aggregation.IntervalLabel (`getIntervalLabel`) is a constant table with no
  property beyond its values. It is defined, but no contract is stated about
  it.
- The code does not guarantee `memMin <= memAvg` or `connMin <= connAvg`,
  even though one might expect min ≤ avg ≤ max for every
  metric. The minimum is rounded to an integer while the average is rounded
  to hundredths. The model follows the code: Aggregation.BucketFigures
  states the order only where it holds, and
  Aggregation.MemMinMayExceedMemAvg exhibits the gap.

=== FILE: aggregation.dfy ===
/** The bucketing engine of `src/utils/aggregation.tsx`: the fixed table of
    aggregation intervals, the choice of intervals worth offering for a
    duration, and `aggregateData`, which cuts a series of samples into maximal
    runs that fall into the same fixed-width time window and reduces each run
    to one record of averages, maxima and minima. */
module Aggregation {
  import opened Wrappers
  import opened Labels
  import opened Numeric

  // ---------------------------------------------------------------------------
  // Aggregation intervals
  // ---------------------------------------------------------------------------

  datatype Interval =
    | OneMinute | FiveMinutes | TenMinutes | FifteenMinutes
    | ThirtyMinutes | OneHour | TwoHours | FourHours

  /** `getIntervalSeconds`: the width of an interval in seconds, a positive
      whole number of minutes. */
  function IntervalSeconds(iv: Interval): (r: nat)
    ensures r > 0 && r % 60 == 0
  {
    match iv
    case OneMinute => 60
    case FiveMinutes => 300
    case TenMinutes => 600
    case FifteenMinutes => 900
    case ThirtyMinutes => 1800
    case OneHour => 3600
    case TwoHours => 7200
    case FourHours => 14400
  }

  /** `getIntervalLabel`: the name shown in the interval selector. */
  function IntervalLabel(iv: Interval): string {
    match iv
    case OneMinute => "1 Minute"
    case FiveMinutes => "5 Minutes"
    case TenMinutes => "10 Minutes"
    case FifteenMinutes => "15 Minutes"
    case ThirtyMinutes => "30 Minutes"
    case OneHour => "1 Hour"
    case TwoHours => "2 Hours"
    case FourHours => "4 Hours"
  }

  /** The intervals in the order every selector lists them. */
  const AllIntervals: seq<Interval> :=
    [OneMinute, FiveMinutes, TenMinutes, FifteenMinutes, ThirtyMinutes, OneHour, TwoHours, FourHours]

  /** Intervals listed from narrowest to widest, each at most once. */
  predicate Increasing(ivs: seq<Interval>) {
    forall i, j :: 0 <= i < j < |ivs| ==> IntervalSeconds(ivs[i]) < IntervalSeconds(ivs[j])
  }

  /** The interval list holds every interval once, narrowest first. */
  lemma AllIntervalsTable()
    ensures |AllIntervals| == 8 && Increasing(AllIntervals)
    ensures forall iv :: iv in AllIntervals
  {
    forall iv
      ensures iv in AllIntervals
    {
      match iv
      case OneMinute => assert AllIntervals[0] == iv;
      case FiveMinutes => assert AllIntervals[1] == iv;
      case TenMinutes => assert AllIntervals[2] == iv;
      case FifteenMinutes => assert AllIntervals[3] == iv;
      case ThirtyMinutes => assert AllIntervals[4] == iv;
      case OneHour => assert AllIntervals[5] == iv;
      case TwoHours => assert AllIntervals[6] == iv;
      case FourHours => assert AllIntervals[7] == iv;
    }
  }

  /** `Math.ceil(totalSeconds / intervalSeconds)`: the number of windows of
      the interval a duration spans. */
  function BucketCount(totalSeconds: real, iv: Interval): int {
    Ceil(totalSeconds / IntervalSeconds(iv) as real)
  }

  /** An interval is offered when it splits the duration into between 5 and
      500 windows. */
  predicate Offered(totalSeconds: real, iv: Interval) {
    5 <= BucketCount(totalSeconds, iv) <= 500
  }

  /** `filter` with `Offered`: the offered intervals, in their order. */
  function FilterOffered(ivs: seq<Interval>, totalSeconds: real): (r: seq<Interval>)
    ensures forall iv :: iv in r <==> iv in ivs && Offered(totalSeconds, iv)
    decreases |ivs|
  {
    if |ivs| == 0 then []
    else
      var rest := FilterOffered(ivs[1..], totalSeconds);
      if Offered(totalSeconds, ivs[0]) then [ivs[0]] + rest else rest
  }

  /** Filtering keeps the order of what it keeps. */
  lemma {:induction false} FilterOfferedIncreasing(ivs: seq<Interval>, totalSeconds: real)
    requires Increasing(ivs)
    ensures Increasing(FilterOffered(ivs, totalSeconds))
    decreases |ivs|
  {
    if |ivs| > 0 {
      var tail := ivs[1..];
      assert Increasing(tail) by {
        forall i, j | 0 <= i < j < |tail|
          ensures IntervalSeconds(tail[i]) < IntervalSeconds(tail[j])
        {
          assert tail[i] == ivs[i + 1] && tail[j] == ivs[j + 1];
        }
      }
      FilterOfferedIncreasing(tail, totalSeconds);
      var rest := FilterOffered(tail, totalSeconds);
      if Offered(totalSeconds, ivs[0]) {
        var r := [ivs[0]] + rest;
        forall i, j | 0 <= i < j < |r|
          ensures IntervalSeconds(r[i]) < IntervalSeconds(r[j])
        {
          assert r[j] == rest[j - 1] && rest[j - 1] in tail;
          var m :| 0 <= m < |tail| && tail[m] == rest[j - 1];
          assert tail[m] == ivs[m + 1];
          if i > 0 {
            assert r[i] == rest[i - 1];
          }
        }
      }
    }
  }

  /** `getAvailableIntervals`: exactly the offered intervals, narrowest first. */
  function AvailableIntervals(totalSeconds: real): (r: seq<Interval>)
    ensures forall iv :: iv in r <==> Offered(totalSeconds, iv)
    ensures Increasing(r)
  {
    AllIntervalsTable();
    FilterOfferedIncreasing(AllIntervals, totalSeconds);
    FilterOffered(AllIntervals, totalSeconds)
  }

  /** No interval is offered exactly when the duration is at most four minutes
      or more than 500 four-hour windows long; in between, the windows of the
      eight intervals overlap and some interval always fits. */
  lemma NothingOffered(totalSeconds: real)
    ensures AvailableIntervals(totalSeconds) == [] <==> totalSeconds <= 240.0 || totalSeconds > 7200000.0
  {
    var r := AvailableIntervals(totalSeconds);
    if 240.0 < totalSeconds <= 7200000.0 {
      var iv := SomeOffered(totalSeconds);
      assert iv in r;
    } else if r != [] {
      NoneOfferedOutside(totalSeconds, r[0]);
    }
  }

  /** An interval is offered when the duration is more than four and at most
      500 of its windows long. */
  lemma OfferedWhen(totalSeconds: real, iv: Interval)
    requires 4.0 * IntervalSeconds(iv) as real < totalSeconds <= 500.0 * IntervalSeconds(iv) as real
    ensures Offered(totalSeconds, iv)
  {
    var w := IntervalSeconds(iv) as real;
    QuotientAbove(totalSeconds, w, 4.0);
    QuotientAtMost(totalSeconds, w, 500.0);
  }

  /** Between four minutes and 500 four-hour windows some interval fits. */
  function SomeOffered(totalSeconds: real): (iv: Interval)
    requires 240.0 < totalSeconds <= 7200000.0
    ensures Offered(totalSeconds, iv)
  {
    var iv :=
      if totalSeconds <= 30000.0 then OneMinute
      else if totalSeconds <= 150000.0 then FiveMinutes
      else if totalSeconds <= 300000.0 then TenMinutes
      else if totalSeconds <= 450000.0 then FifteenMinutes
      else if totalSeconds <= 900000.0 then ThirtyMinutes
      else if totalSeconds <= 1800000.0 then OneHour
      else if totalSeconds <= 3600000.0 then TwoHours
      else FourHours;
    OfferedWhen(totalSeconds, iv);
    iv
  }

  lemma NoneOfferedOutside(totalSeconds: real, iv: Interval)
    requires totalSeconds <= 240.0 || totalSeconds > 7200000.0
    ensures !Offered(totalSeconds, iv)
  {
    var w := IntervalSeconds(iv) as real;
    if totalSeconds <= 240.0 {
      QuotientAtMost(totalSeconds, w, 4.0);
    } else {
      QuotientAbove(totalSeconds, w, 500.0);
    }
  }

  // ---------------------------------------------------------------------------
  // Samples, records and buckets
  // ---------------------------------------------------------------------------

  /** One parsed sample; the source's display strings (`time`, `timeLabel`,
      `fullTime`) are not read by the engine and are left out. */
  datatype Sample = Sample(index: int, timestamp: int, elapsedSeconds: nat, cpu: real, mem: real, conn: real)

  /** `AggregatedData`: one record per emitted bucket. */
  datatype AggregatedData = AggregatedData(
    index: nat,
    startTime: string,
    endTime: string,
    timeLabel: string,
    elapsedSeconds: nat,
    cpuAvg: real, cpuMax: real, cpuMin: real,
    memAvg: real, memMax: int, memMin: int,
    connAvg: real, connMax: int, connMin: int,
    dataPoints: nat)

  datatype Metric = Cpu | Mem | Conn

  function MetricOf(p: Sample, m: Metric): real {
    match m
    case Cpu => p.cpu
    case Mem => p.mem
    case Conn => p.conn
  }

  /** `bucket.map(p => p.cpu)` and its two siblings. */
  function Values(bucket: seq<Sample>, m: Metric): (r: seq<real>)
    ensures |r| == |bucket|
    ensures forall j :: 0 <= j < |r| ==> r[j] == MetricOf(bucket[j], m)
  {
    seq(|bucket|, j requires 0 <= j < |bucket| => MetricOf(bucket[j], m))
  }

  /** `Math.floor(elapsedSeconds / width) * width`: the start of the window a
      time falls into. */
  function BucketStart(elapsedSeconds: nat, width: nat): (r: nat)
    requires width > 0
    ensures r <= elapsedSeconds < r + width
  {
    (elapsedSeconds / width) * width
  }

  /** Windows start at whole multiples of their width. */
  lemma BucketStartAligned(elapsedSeconds: nat, width: nat)
    requires width > 0
    ensures BucketStart(elapsedSeconds, width) % width == 0
  {
    MultipleOf(elapsedSeconds / width, width);
  }

  lemma BucketStartMonotone(a: nat, b: nat, width: nat)
    requires width > 0 && a <= b
    ensures BucketStart(a, width) <= BucketStart(b, width)
  {
    var qa, qb := a / width, b / width;
    if qa > qb {
      assert qa * width >= (qb + 1) * width;
    }
  }

  function Key(p: Sample, width: nat): nat
    requires width > 0
  {
    BucketStart(p.elapsedSeconds, width)
  }

  /** Every sample of the run falls into the window of its first sample. */
  predicate SameWindow(run: seq<Sample>, width: nat)
    requires width > 0 && |run| > 0
  {
    forall j :: 0 <= j < |run| ==> Key(run[j], width) == Key(run[0], width)
  }

  /** The concatenation of the runs. */
  function Flatten(runs: seq<seq<Sample>>): seq<Sample>
    decreases |runs|
  {
    if |runs| == 0 then [] else Flatten(runs[..|runs| - 1]) + runs[|runs| - 1]
  }

  /** `runs` cuts `s` into non-empty runs that each stay in one window, with
      neighbouring runs in different windows: the maximal same-window runs. */
  predicate IsRunPartition(runs: seq<seq<Sample>>, s: seq<Sample>, width: nat)
    requires width > 0
  {
    && Flatten(runs) == s
    && (forall k :: 0 <= k < |runs| ==> |runs[k]| > 0 && SameWindow(runs[k], width))
    && (forall k :: 1 <= k < |runs| ==> Key(runs[k - 1][0], width) != Key(runs[k][0], width))
  }

  /** A sample in a new window starts a new run. */
  lemma PartitionAppendRun(g: seq<seq<Sample>>, s: seq<Sample>, x: Sample, width: nat)
    requires width > 0 && IsRunPartition(g, s, width)
    requires |g| == 0 || Key(g[|g| - 1][0], width) != Key(x, width)
    ensures IsRunPartition(g + [[x]], s + [x], width)
  {
    var runs := g + [[x]];
    assert runs[..|runs| - 1] == g;
    forall k | 0 <= k < |runs|
      ensures |runs[k]| > 0 && SameWindow(runs[k], width)
    {
      if k < |g| {
        assert runs[k] == g[k];
      }
    }
    forall k | 1 <= k < |runs|
      ensures Key(runs[k - 1][0], width) != Key(runs[k][0], width)
    {
      assert runs[k - 1] == g[k - 1];
      if k < |g| {
        assert runs[k] == g[k];
      }
    }
  }

  /** A sample in the window of the last run joins that run. */
  lemma PartitionExtendLast(g: seq<seq<Sample>>, s: seq<Sample>, x: Sample, width: nat)
    requires width > 0 && IsRunPartition(g, s, width)
    requires |g| > 0 && Key(g[|g| - 1][0], width) == Key(x, width)
    ensures IsRunPartition(g[..|g| - 1] + [g[|g| - 1] + [x]], s + [x], width)
  {
    var n := |g|;
    var last := g[n - 1] + [x];
    var runs := g[..n - 1] + [last];
    assert runs[..n - 1] == g[..n - 1];
    assert Flatten(g) == Flatten(g[..n - 1]) + g[n - 1];
    assert SameWindow(last, width) by {
      forall j | 0 <= j < |last|
        ensures Key(last[j], width) == Key(last[0], width)
      {
        if j < |g[n - 1]| {
          assert last[j] == g[n - 1][j];
        }
      }
    }
    forall k | 0 <= k < |runs|
      ensures |runs[k]| > 0 && SameWindow(runs[k], width)
    {
      if k < n - 1 {
        assert runs[k] == g[k];
      }
    }
    forall k | 1 <= k < |runs|
      ensures Key(runs[k - 1][0], width) != Key(runs[k][0], width)
    {
      assert runs[k - 1] == g[k - 1];
      assert runs[k][0] == g[k][0];
    }
  }

  /** The buckets the walk of `aggregateData` builds: each sample either joins
      the open bucket (same window) or closes it and opens a new one. */
  function Group(s: seq<Sample>, width: nat): (runs: seq<seq<Sample>>)
    requires width > 0
    ensures IsRunPartition(runs, s, width)
    ensures |runs| == 0 <==> |s| == 0
    ensures |s| > 0 ==> Key(runs[|runs| - 1][0], width) == Key(s[|s| - 1], width)
    decreases |s|
  {
    if |s| == 0 then []
    else
      var g := Group(s[..|s| - 1], width);
      var x := s[|s| - 1];
      assert s == s[..|s| - 1] + [x];
      if |g| > 0 && Key(g[|g| - 1][0], width) == Key(x, width) then
        PartitionExtendLast(g, s[..|s| - 1], x, width);
        g[..|g| - 1] + [g[|g| - 1] + [x]]
      else
        PartitionAppendRun(g, s[..|s| - 1], x, width);
        g + [[x]]
  }

  lemma FlattenEmpty(runs: seq<seq<Sample>>)
    requires forall k :: 0 <= k < |runs| ==> |runs[k]| > 0
    ensures Flatten(runs) == [] <==> |runs| == 0
  {
  }

  /** The runs without the last sample: the last run shrinks, or disappears
      when it held only that sample. */
  function DropLastSample(runs: seq<seq<Sample>>): seq<seq<Sample>>
    requires |runs| > 0 && |runs[|runs| - 1]| > 0
  {
    var n := |runs|;
    var last := runs[n - 1];
    if |last| == 1 then runs[..n - 1] else runs[..n - 1] + [last[..|last| - 1]]
  }

  /** Dropping the last sample of a run partition leaves a run partition of
      the shorter sequence. */
  lemma PartitionDropLast(runs: seq<seq<Sample>>, s: seq<Sample>, width: nat)
    requires width > 0 && IsRunPartition(runs, s, width) && |s| > 0
    ensures |runs| > 0 && |runs[|runs| - 1]| > 0
    ensures IsRunPartition(DropLastSample(runs), s[..|s| - 1], width)
    ensures s[|s| - 1] == runs[|runs| - 1][|runs[|runs| - 1]| - 1]
  {
    FlattenEmpty(runs);
    var n, m := |runs|, |s|;
    var init, last := runs[..n - 1], runs[n - 1];
    assert s == Flatten(init) + last;
    var d := DropLastSample(runs);
    if |last| == 1 {
      assert Flatten(init) == s[..m - 1];
      forall k | 1 <= k < |init|
        ensures Key(init[k - 1][0], width) != Key(init[k][0], width)
      {
        assert init[k - 1] == runs[k - 1] && init[k] == runs[k];
      }
    } else {
      var last' := last[..|last| - 1];
      assert d[..n - 1] == init;
      assert last == last' + [s[m - 1]];
      assert Flatten(d) == s[..m - 1];
      assert SameWindow(last', width) by {
        forall j | 0 <= j < |last'|
          ensures Key(last'[j], width) == Key(last'[0], width)
        {
          assert last'[j] == last[j];
        }
      }
      forall k | 0 <= k < |d|
        ensures |d[k]| > 0 && SameWindow(d[k], width)
      {
        if k < n - 1 {
          assert d[k] == runs[k];
        }
      }
      forall k | 1 <= k < |d|
        ensures Key(d[k - 1][0], width) != Key(d[k][0], width)
      {
        assert d[k - 1] == runs[k - 1];
        assert d[k][0] == runs[k][0];
      }
    }
  }

  /** A sample outside the window of the last run opens a new run. */
  lemma GroupAppend(s: seq<Sample>, x: Sample, width: nat)
    requires width > 0
    requires var g := Group(s, width); |g| == 0 || Key(g[|g| - 1][0], width) != Key(x, width)
    ensures Group(s + [x], width) == Group(s, width) + [[x]]
  {
    assert (s + [x])[..|s|] == s;
  }

  /** A sample inside the window of the last run joins it. */
  lemma GroupExtend(s: seq<Sample>, x: Sample, width: nat)
    requires width > 0
    requires var g := Group(s, width); |g| > 0 && Key(g[|g| - 1][0], width) == Key(x, width)
    ensures var g := Group(s, width); Group(s + [x], width) == g[..|g| - 1] + [g[|g| - 1] + [x]]
  {
    assert (s + [x])[..|s|] == s;
  }

  /** A partition whose last run is the single last sample is `Group`'s, once
      the partition of the shorter sequence is. */
  lemma UniqueNewRun(runs: seq<seq<Sample>>, p: seq<Sample>, x: Sample, width: nat)
    requires width > 0 && IsRunPartition(runs, p + [x], width)
    requires |runs| > 0 && runs[|runs| - 1] == [x]
    requires runs[..|runs| - 1] == Group(p, width)
    ensures runs == Group(p + [x], width)
  {
    var n := |runs|;
    var g := runs[..n - 1];
    if |g| > 0 {
      assert g[|g| - 1] == runs[n - 2];
    }
    GroupAppend(p, x, width);
    assert runs == g + [[x]];
  }

  /** A sample in the window of the last run of `Group` joins that run. */
  lemma GroupJoinsLast(p: seq<Sample>, x: Sample, width: nat, init: seq<seq<Sample>>, last: seq<Sample>)
    requires width > 0 && |last| > 0 && Group(p, width) == init + [last]
    requires Key(last[0], width) == Key(x, width)
    ensures Group(p + [x], width) == init + [last + [x]]
  {
    var g := Group(p, width);
    assert g[|g| - 1] == last && g[..|g| - 1] == init;
    GroupExtend(p, x, width);
  }

  /** A last run longer than one sample is the run without its last sample,
      which is in the same window, followed by that sample. */
  lemma SplitLastRun(runs: seq<seq<Sample>>, width: nat)
    requires width > 0 && |runs| > 0 && |runs[|runs| - 1]| > 1
    requires SameWindow(runs[|runs| - 1], width)
    ensures var last := runs[|runs| - 1]; var last' := last[..|last| - 1];
      && runs == runs[..|runs| - 1] + [last' + [last[|last| - 1]]]
      && Key(last'[0], width) == Key(last[|last| - 1], width)
  {
    var n := |runs|;
    var last := runs[n - 1];
    var last' := last[..|last| - 1];
    assert last'[0] == last[0];
    assert last' + [last[|last| - 1]] == last;
    assert runs == runs[..n - 1] + [last];
  }

  /** The maximal same-window runs of a sequence are unique: any run partition
      is the one `Group` builds. */
  lemma {:induction false} GroupUnique(runs: seq<seq<Sample>>, s: seq<Sample>, width: nat)
    requires width > 0 && IsRunPartition(runs, s, width)
    ensures runs == Group(s, width)
    decreases |s|
  {
    if |s| == 0 {
      FlattenEmpty(runs);
    } else {
      PartitionDropLast(runs, s, width);
      var m := |s|;
      var x := s[m - 1];
      var p := s[..m - 1];
      assert s == p + [x];
      GroupUnique(DropLastSample(runs), p, width);
      if |runs[|runs| - 1]| == 1 {
        UniqueNewRun(runs, p, x, width);
      } else {
        var last := runs[|runs| - 1];
        assert SameWindow(last, width);
        SplitLastRun(runs, width);
        GroupJoinsLast(p, x, width, runs[..|runs| - 1], last[..|last| - 1]);
      }
    }
  }

  // ---------------------------------------------------------------------------
  // Reducing one bucket
  // ---------------------------------------------------------------------------

  /** `formatTime`: "Hh Mm Ss", with leading zero components dropped. The
      fields are a suffix of hours, minutes, seconds; the first is non-zero
      unless it is the only one; minutes and seconds are below 60. */
  function TimeFields(seconds: nat): (r: seq<Field>)
    ensures WellFormed(r) && Seconds(r) == seconds
    ensures 1 <= |r| <= 3
    ensures forall k :: 0 <= k < |r| ==> r[k].unit == [Hour, Minute, Second][3 - |r| + k]
    ensures r[0].value > 0 || |r| == 1
    ensures forall k :: 0 <= k < |r| ==> r[k].marked && !r[k].padded
    ensures forall k :: 0 <= k < |r| && r[k].unit != Hour ==> r[k].value < 60
  {
    var hours := seconds / 3600;
    var minutes := (seconds % 3600) / 60;
    var secs := seconds % 60;
    HoursMinutesSeconds(seconds);
    var s := [Field(secs, Second, false, true)];
    var ms := [Field(minutes, Minute, false, true)] + s;
    assert Seconds(ms) == minutes * 60 + secs by {
      assert s[1..] == [];
      assert Seconds(s) == secs;
      assert ms[1..] == s;
      assert Seconds(ms) == InSeconds(minutes, Minute) + Seconds(ms[1..]);
    }
    if hours > 0 then
      var hms := [Field(hours, Hour, false, true)] + ms;
      assert hms[1..] == ms;
      hms
    else if minutes > 0 then ms
    else s
  }

  lemma HoursMinutesSeconds(seconds: nat)
    ensures seconds == seconds / 3600 * 3600 + (seconds % 3600) / 60 * 60 + seconds % 60
    ensures (seconds % 3600) / 60 < 60
    ensures seconds / 60 * 60 == seconds / 3600 * 3600 + (seconds % 3600) / 60 * 60
  {
  }

  /** `formatTime`: the fields joined by spaces. The label reads back as
      exactly the given seconds. */
  function FormatTime(seconds: nat): (r: string)
    ensures ReadSeconds(r) == Some(seconds)
  {
    ReadRender(TimeFields(seconds), ' ');
    Render(TimeFields(seconds), ' ')
  }

  /** `formatTimeRange` (whose end argument is unused): "Hh" or "Hh:MM" from
      one hour on, "Mm" below. */
  function TimeRangeFields(startSeconds: nat): (r: seq<Field>)
    ensures WellFormed(r) && Seconds(r) == startSeconds / 60 * 60
    ensures r[0].unit == Hour <==> startSeconds >= 3600
    ensures r[0].unit == Hour ==> forall k :: 1 <= k < |r| ==> r[k].unit == Minute && r[k].padded && 0 < r[k].value < 60
    ensures r[0].unit != Hour ==> r == [Field(startSeconds / 60, Minute, false, true)]
    ensures startSeconds >= 3600 ==> r[0] == Field(startSeconds / 3600, Hour, false, true)
    ensures |r| <= 2 && (|r| == 2 <==> startSeconds >= 3600 && (startSeconds % 3600) / 60 > 0)
    ensures forall k :: 1 <= k < |r| ==> !r[k].marked
  {
    var totalHours := startSeconds / 3600;
    var totalMinutes := (startSeconds % 3600) / 60;
    HoursMinutesSeconds(startSeconds);
    if totalHours > 0 then
      var h := [Field(totalHours, Hour, false, true)];
      var m := if totalMinutes > 0 then [Field(totalMinutes, Minute, true, false)] else [];
      assert Seconds(m) == totalMinutes * 60;
      assert (h + m)[1..] == m;
      h + m
    else
      [Field(totalMinutes, Minute, false, true)]
  }

  /** `formatTimeRange`: the fields joined by colons. The axis label reads
      back as the start truncated to the whole minute, whatever the end. */
  function FormatTimeRange(startSeconds: nat, endSeconds: nat): (r: string)
    ensures ReadSeconds(r) == Some(startSeconds / 60 * 60)
  {
    ReadRender(TimeRangeFields(startSeconds), ':');
    Render(TimeRangeFields(startSeconds), ':')
  }

  // ---------------------------------------------------------------------------
  // Buckets and their records
  // ---------------------------------------------------------------------------

  /** The arguments of `processBucket`: the samples of one bucket, the start
      of its window, the interval width and the bucket's number. */
  datatype Bucket = Bucket(samples: seq<Sample>, startSeconds: nat, width: nat, index: nat)

  /** The end of a bucket's window, `startSeconds + intervalSeconds`. */
  function WindowEnd(b: Bucket): nat {
    b.startSeconds + b.width
  }

  /** `processBucket` is only ever handed a bucket holding a sample. */
  type FilledBucket = b: Bucket | |b.samples| > 0 witness Bucket([Sample(0, 0, 0, 0.0, 0.0, 0.0)], 0, 0, 0)

  /** `processBucket`: one record for a bucket, stamped with the window start,
      the bucket number and the number of samples reduced. `BucketFigures`
      states what its labels and figures are. */
  function ProcessBucket(b: FilledBucket): (r: AggregatedData)
    ensures r.index == b.index && r.elapsedSeconds == b.startSeconds && r.dataPoints == |b.samples|
  {
    var cpuValues := Values(b.samples, Cpu);
    var memValues := Values(b.samples, Mem);
    var connValues := Values(b.samples, Conn);
    AggregatedData(
      b.index,
      FormatTime(b.startSeconds),
      FormatTime(WindowEnd(b)),
      FormatTimeRange(b.startSeconds, WindowEnd(b)),
      b.startSeconds,
      ToFixed2(Mean(cpuValues)), ToFixed2(MaxOf(cpuValues)), ToFixed2(MinOf(cpuValues)),
      ToFixed2(Mean(memValues)), JsRound(MaxOf(memValues)), JsRound(MinOf(memValues)),
      ToFixed2(Mean(connValues)), JsRound(MaxOf(connValues)), JsRound(MinOf(connValues)),
      |b.samples|)
  }

  /** A bucket's three labels read back as the window start, the window end
      and the start truncated to the minute. */
  lemma BucketLabels(b: FilledBucket)
    ensures var r := ProcessBucket(b);
      && ReadSeconds(r.startTime) == Some(b.startSeconds)
      && ReadSeconds(r.endTime) == Some(WindowEnd(b))
      && ReadSeconds(r.timeLabel) == Some(b.startSeconds / 60 * 60)
  {
  }

  /** A bucket's figures: the cpu figures are whole hundredths within half a
      hundredth of the mean, maximum and minimum, and keep their order; the
      memory and connection averages are within half a hundredth of the mean
      and their extremes are the nearest integers to the true extremes. */
  lemma BucketFigures(b: FilledBucket)
    ensures var r := ProcessBucket(b);
      var cpu, mem, conn := Values(b.samples, Cpu), Values(b.samples, Mem), Values(b.samples, Conn);
      && NearestHundredth(r.cpuAvg, Mean(cpu))
      && NearestHundredth(r.cpuMax, MaxOf(cpu))
      && NearestHundredth(r.cpuMin, MinOf(cpu))
      && r.cpuMin <= r.cpuAvg <= r.cpuMax
      && NearestHundredth(r.memAvg, Mean(mem))
      && NearestHundredth(r.connAvg, Mean(conn))
      && -0.5 < r.memMax as real - MaxOf(mem) <= 0.5
      && -0.5 < r.memMin as real - MinOf(mem) <= 0.5
      && -0.5 < r.connMax as real - MaxOf(conn) <= 0.5
      && -0.5 < r.connMin as real - MinOf(conn) <= 0.5
      && r.memMin <= r.memMax && r.connMin <= r.connMax
  {
    var cpuValues := Values(b.samples, Cpu);
    var memValues := Values(b.samples, Mem);
    var connValues := Values(b.samples, Conn);
    MeanBetween(cpuValues);
    ToFixed2Monotone(MinOf(cpuValues), Mean(cpuValues));
    ToFixed2Monotone(Mean(cpuValues), MaxOf(cpuValues));
    JsRoundMonotone(MinOf(memValues), MaxOf(memValues));
    JsRoundMonotone(MinOf(connValues), MaxOf(connValues));
  }

  /** `f` applied to every element, in order. */
  function MapSeq<A, B>(f: A -> B, xs: seq<A>): (r: seq<B>)
    ensures |r| == |xs|
    decreases |xs|
  {
    if |xs| == 0 then [] else MapSeq(f, xs[..|xs| - 1]) + [f(xs[|xs| - 1])]
  }

  lemma {:induction false} MapAt<A, B>(f: A -> B, xs: seq<A>, k: nat)
    requires k < |xs|
    ensures MapSeq(f, xs)[k] == f(xs[k])
    decreases |xs|
  {
    if k < |xs| - 1 {
      MapAt(f, xs[..|xs| - 1], k);
    }
  }

  lemma MapSnoc<A, B>(f: A -> B, xs: seq<A>, x: A)
    ensures MapSeq(f, xs + [x]) == MapSeq(f, xs) + [f(x)]
  {
    assert (xs + [x])[..|xs|] == xs;
  }

  /** The buckets `aggregateData` hands to `processBucket` for a list of runs:
      each run with the start of its window, numbered from 0. */
  function Buckets(runs: seq<seq<Sample>>, width: nat): (r: seq<FilledBucket>)
    requires width > 0
    requires forall k :: 0 <= k < |runs| ==> |runs[k]| > 0
    ensures |r| == |runs|
  {
    seq(|runs|, k requires 0 <= k < |runs| => Bucket(runs[k], Key(runs[k][0], width), width, k))
  }

  /** Bucket k holds run k, numbered k, starting at the window of the run's
      first sample. */
  lemma BucketsAt(runs: seq<seq<Sample>>, width: nat, k: nat)
    requires width > 0 && k < |runs|
    requires forall j :: 0 <= j < |runs| ==> |runs[j]| > 0
    ensures Buckets(runs, width)[k] == Bucket(runs[k], Key(runs[k][0], width), width, k)
  {
  }

  lemma BucketsSnoc(runs: seq<seq<Sample>>, run: seq<Sample>, width: nat)
    requires width > 0 && |run| > 0
    requires forall k :: 0 <= k < |runs| ==> |runs[k]| > 0
    ensures Buckets(runs + [run], width) == Buckets(runs, width) + [Bucket(run, Key(run[0], width), width, |runs|)]
  {
    var a := Buckets(runs + [run], width);
    var b := Buckets(runs, width) + [Bucket(run, Key(run[0], width), width, |runs|)];
    forall k | 0 <= k < |a|
      ensures a[k] == b[k]
    {
      if k < |runs| {
        assert (runs + [run])[k] == runs[k];
      }
    }
  }

  // ---------------------------------------------------------------------------
  // aggregateData
  // ---------------------------------------------------------------------------

  /** `aggregateData`: one record per maximal same-window run of the input;
      `AggregateWindows` and `AggregateRecords` state what the records hold. */
  function AggregateData(data: seq<Sample>, iv: Interval): (r: seq<AggregatedData>)
    ensures |data| == 0 <==> r == []
    ensures |r| == |Group(data, IntervalSeconds(iv))|
  {
    var width := IntervalSeconds(iv);
    MapSeq(ProcessBucket, Buckets(Group(data, width), width))
  }

  /** The records come in input order, numbered densely from 0 even where
      windows are skipped; each counts the samples of its run, starts on a
      whole multiple of the interval, and every sample of its run falls into
      the window it starts; neighbouring records lie in different windows. */
  lemma AggregateWindows(data: seq<Sample>, iv: Interval)
    ensures var width := IntervalSeconds(iv);
      var runs := Group(data, width);
      var r := AggregateData(data, iv);
      && |r| == |runs|
      && (forall k :: 0 <= k < |r| ==>
        && r[k].index == k
        && r[k].dataPoints == |runs[k]| >= 1
        && r[k].elapsedSeconds % width == 0
        && (forall j :: 0 <= j < |runs[k]| ==> r[k].elapsedSeconds == BucketStart(runs[k][j].elapsedSeconds, width)))
      && (forall k :: 1 <= k < |r| ==> r[k - 1].elapsedSeconds != r[k].elapsedSeconds)
  {
    var width := IntervalSeconds(iv);
    var runs: seq<seq<Sample>> := Group(data, width);
    var buckets := Buckets(runs, width);
    var r := AggregateData(data, iv);
    forall k: int | 0 <= k < |r|
      ensures r[k].index == k && r[k].dataPoints == |runs[k]| >= 1
      ensures r[k].elapsedSeconds == Key(runs[k][0], width)
      ensures r[k].elapsedSeconds % width == 0
      ensures forall j :: 0 <= j < |runs[k]| ==> r[k].elapsedSeconds == BucketStart(runs[k][j].elapsedSeconds, width)
    {
      MapAt<FilledBucket, AggregatedData>(ProcessBucket, buckets, k);
      BucketStartAligned(runs[k][0].elapsedSeconds, width);
    }
  }

  /** The k-th record is `processBucket` of the k-th run, numbered k and
      starting at the run's window, so `BucketFigures` and `BucketLabels`
      describe every record. */
  lemma AggregateReducesRuns(data: seq<Sample>, iv: Interval, k: nat)
    requires k < |AggregateData(data, iv)|
    ensures var width := IntervalSeconds(iv);
      var run := Group(data, width)[k];
      |run| > 0 && AggregateData(data, iv)[k] == ProcessBucket(Bucket(run, Key(run[0], width), width, k))
  {
    var width := IntervalSeconds(iv);
    ReducedAt(Group(data, width), width, ProcessBucket, k);
  }

  /** The k-th reduced bucket is the reduction of the k-th run's bucket. */
  lemma ReducedAt<R>(runs: seq<seq<Sample>>, width: nat, reduce: FilledBucket -> R, k: nat)
    requires width > 0 && k < |runs| && forall j :: 0 <= j < |runs| ==> |runs[j]| > 0
    ensures MapSeq(reduce, Buckets(runs, width))[k] == reduce(Bucket(runs[k], Key(runs[k][0], width), width, k))
  {
    MapAt(reduce, Buckets(runs, width), k);
  }

  /** Every record's figures keep their order: minimum, average, maximum for
      cpu, minimum and maximum for memory and connections. */
  lemma AggregateRecords(data: seq<Sample>, iv: Interval)
    ensures var r := AggregateData(data, iv);
      forall k :: 0 <= k < |r| ==>
        && r[k].cpuMin <= r[k].cpuAvg <= r[k].cpuMax
        && r[k].memMin <= r[k].memMax && r[k].connMin <= r[k].connMax
  {
    var width := IntervalSeconds(iv);
    var buckets := Buckets(Group(data, width), width);
    var r := AggregateData(data, iv);
    forall k: int | 0 <= k < |r|
      ensures r[k].cpuMin <= r[k].cpuAvg <= r[k].cpuMax
      ensures r[k].memMin <= r[k].memMax && r[k].connMin <= r[k].connMax
    {
      MapAt<FilledBucket, AggregatedData>(ProcessBucket, buckets, k);
      BucketFigures(buckets[k]);
    }
  }

  /** The sample counts of the records. */
  function TotalPoints(records: seq<AggregatedData>): nat
    decreases |records|
  {
    if |records| == 0 then 0 else TotalPoints(records[..|records| - 1]) + records[|records| - 1].dataPoints
  }

  function TotalLength(runs: seq<seq<Sample>>): nat
    decreases |runs|
  {
    if |runs| == 0 then 0 else TotalLength(runs[..|runs| - 1]) + |runs[|runs| - 1]|
  }

  lemma {:induction false} FlattenLength(runs: seq<seq<Sample>>)
    ensures |Flatten(runs)| == TotalLength(runs)
    decreases |runs|
  {
    if |runs| > 0 {
      FlattenLength(runs[..|runs| - 1]);
    }
  }

  lemma TotalPointsSnoc(records: seq<AggregatedData>, last: AggregatedData)
    ensures TotalPoints(records + [last]) == TotalPoints(records) + last.dataPoints
  {
    assert (records + [last])[..|records|] == records;
  }

  /** The records of any reduction that counts its bucket's samples count all
      the samples of the runs. */
  lemma {:induction false} TotalPointsOfRecords(runs: seq<seq<Sample>>, width: nat, reduce: FilledBucket -> AggregatedData)
    requires width > 0
    requires forall k :: 0 <= k < |runs| ==> |runs[k]| > 0
    requires forall b: FilledBucket :: reduce(b).dataPoints == |b.samples|
    ensures TotalPoints(MapSeq(reduce, Buckets(runs, width))) == TotalLength(runs)
    decreases |runs|
  {
    if |runs| > 0 {
      var n := |runs|;
      var init := runs[..n - 1];
      var last := runs[n - 1];
      assert runs == init + [last];
      BucketsSnoc(init, last, width);
      var b := Bucket(last, Key(last[0], width), width, n - 1);
      var rs := MapSeq(reduce, Buckets(init, width));
      MapSnoc<FilledBucket, AggregatedData>(reduce, Buckets(init, width), b);
      TotalPointsSnoc(rs, reduce(b));
      TotalPointsOfRecords(init, width, reduce);
      assert TotalLength(runs) == TotalLength(init) + |last|;
    }
  }

  /** Every sample is counted in exactly one record: the sample counts add up
      to the input length. */
  lemma AggregateCountsEverySample(data: seq<Sample>, iv: Interval)
    ensures TotalPoints(AggregateData(data, iv)) == |data|
  {
    var width := IntervalSeconds(iv);
    var runs := Group(data, width);
    FlattenLength(runs);
    TotalPointsOfRecords(runs, width, ProcessBucket);
  }

  predicate Sorted(data: seq<Sample>) {
    forall i, j :: 0 <= i < j < |data| ==> data[i].elapsedSeconds <= data[j].elapsedSeconds
  }

  predicate WindowsIncrease(runs: seq<seq<Sample>>, width: nat)
    requires width > 0
    requires forall k :: 0 <= k < |runs| ==> |runs[k]| > 0
  {
    forall k :: 1 <= k < |runs| ==> Key(runs[k - 1][0], width) < Key(runs[k][0], width)
  }

  lemma IncreaseAppend(g: seq<seq<Sample>>, x: Sample, width: nat)
    requires width > 0 && forall k :: 0 <= k < |g| ==> |g[k]| > 0
    requires WindowsIncrease(g, width)
    requires |g| == 0 || Key(g[|g| - 1][0], width) < Key(x, width)
    ensures WindowsIncrease(g + [[x]], width)
  {
    var runs := g + [[x]];
    forall k | 1 <= k < |runs|
      ensures Key(runs[k - 1][0], width) < Key(runs[k][0], width)
    {
      assert runs[k - 1] == g[k - 1];
      if k < |g| {
        assert runs[k] == g[k];
      }
    }
  }

  lemma IncreaseExtend(g: seq<seq<Sample>>, x: Sample, width: nat)
    requires width > 0 && |g| > 0 && forall k :: 0 <= k < |g| ==> |g[k]| > 0
    requires WindowsIncrease(g, width)
    ensures WindowsIncrease(g[..|g| - 1] + [g[|g| - 1] + [x]], width)
  {
    var runs := g[..|g| - 1] + [g[|g| - 1] + [x]];
    forall k | 1 <= k < |runs|
      ensures Key(runs[k - 1][0], width) < Key(runs[k][0], width)
    {
      assert runs[k - 1][0] == g[k - 1][0] && runs[k][0] == g[k][0];
    }
  }

  /** On time-ordered input the windows of consecutive runs strictly increase. */
  lemma {:induction false} GroupWindowsIncrease(data: seq<Sample>, width: nat)
    requires width > 0 && Sorted(data)
    ensures WindowsIncrease(Group(data, width), width)
    decreases |data|
  {
    if |data| > 0 {
      var m := |data|;
      var p, x := data[..m - 1], data[m - 1];
      assert data == p + [x];
      assert Sorted(p) by {
        forall i, j | 0 <= i < j < |p|
          ensures p[i].elapsedSeconds <= p[j].elapsedSeconds
        {
          assert p[i] == data[i] && p[j] == data[j];
        }
      }
      GroupWindowsIncrease(p, width);
      var g := Group(p, width);
      if |g| > 0 {
        assert Key(g[|g| - 1][0], width) == Key(p[m - 2], width);
        BucketStartMonotone(p[m - 2].elapsedSeconds, x.elapsedSeconds, width);
      }
      if |g| > 0 && Key(g[|g| - 1][0], width) == Key(x, width) {
        GroupExtend(p, x, width);
        IncreaseExtend(g, x, width);
      } else {
        GroupAppend(p, x, width);
        IncreaseAppend(g, x, width);
      }
    }
  }

  /** On time-ordered input the records' window starts strictly increase. */
  lemma AggregateIncreasing(data: seq<Sample>, iv: Interval)
    requires Sorted(data)
    ensures var r := AggregateData(data, iv);
      forall k :: 1 <= k < |r| ==> r[k - 1].elapsedSeconds < r[k].elapsedSeconds
  {
    var width := IntervalSeconds(iv);
    var runs := Group(data, width);
    GroupWindowsIncrease(data, width);
    AggregateWindows(data, iv);
    var r := AggregateData(data, iv);
    forall k | 1 <= k < |r|
      ensures r[k - 1].elapsedSeconds < r[k].elapsedSeconds
    {
      assert r[k - 1].elapsedSeconds == Key(runs[k - 1][0], width);
      assert r[k].elapsedSeconds == Key(runs[k][0], width);
    }
  }

  /** The average memory is not bounded below by the minimum memory: the
      minimum is rounded to an integer and the average to hundredths, so a
      single sample of 100.5 gives a minimum of 101 over an average of 100.5. */
  lemma MemMinMayExceedMemAvg(s: Sample)
    requires s.mem == 100.5
    ensures var r := AggregateData([s], OneMinute);
      |r| == 1 && r[0].memMin == 101 && r[0].memMin as real > r[0].memAvg
  {
    var mems := Values([s], Mem);
    assert mems == [100.5];
    assert Sum(mems) == 100.5 by {
      assert mems[..0] == [];
    }
    assert Mean(mems) == 100.5;
    assert MinOf(mems) == 100.5;
    assert Group([s], 60) == [[s]] by {
      assert [s][..0] == [];
    }
    var b := Bucket([s], Key(s, 60), 60, 0);
    assert Buckets([[s]], 60) == [b];
    MapAt<FilledBucket, AggregatedData>(ProcessBucket, [b], 0);
    BucketFigures(b);
  }

  // ---------------------------------------------------------------------------
  // The walk as written
  // ---------------------------------------------------------------------------

  /** The state of the walk after the samples `p`: the open bucket is the last
      run of `p`, and `reduce` has been applied to each earlier run's bucket.
      The walk does not depend on what the reduction computes. */
  ghost predicate Walked<R>(p: seq<Sample>, width: nat, bucket: seq<Sample>, startSeconds: nat, bucketIndex: nat,
                      emitted: seq<R>, reduce: FilledBucket -> R)
    requires width > 0
  {
    if |p| == 0 then bucket == [] && emitted == [] && bucketIndex == 0
    else
      var g := Group(p, width);
      && bucket == g[|g| - 1]
      && startSeconds == Key(bucket[0], width)
      && bucketIndex == |g| - 1
      && emitted == MapSeq(reduce, Buckets(g[..|g| - 1], width))
  }

  /** The reductions of a list of runs are those of all runs but the last,
      then that of the last. */
  lemma ReducedSnoc<R>(g: seq<seq<Sample>>, width: nat, reduce: FilledBucket -> R)
    requires width > 0 && |g| > 0 && forall k :: 0 <= k < |g| ==> |g[k]| > 0
    ensures var last := g[|g| - 1];
      MapSeq(reduce, Buckets(g, width)) ==
        MapSeq(reduce, Buckets(g[..|g| - 1], width)) + [reduce(Bucket(last, Key(last[0], width), width, |g| - 1))]
  {
    var init, last := g[..|g| - 1], g[|g| - 1];
    assert g == init + [last];
    BucketsSnoc(init, last, width);
    MapSnoc<FilledBucket, R>(reduce, Buckets(init, width), Bucket(last, Key(last[0], width), width, |init|));
  }

  /** A sample in a new window closes the open bucket and opens another. */
  lemma WalkNewBucket<R>(p: seq<Sample>, x: Sample, width: nat, bucket: seq<Sample>, startSeconds: nat, bucketIndex: nat,
                         emitted: seq<R>, reduce: FilledBucket -> R)
    requires width > 0 && Walked(p, width, bucket, startSeconds, bucketIndex, emitted, reduce)
    requires |bucket| > 0 && BucketStart(x.elapsedSeconds, width) != startSeconds
    ensures Walked(p + [x], width, [x], BucketStart(x.elapsedSeconds, width), bucketIndex + 1,
                   emitted + [reduce(Bucket(bucket, startSeconds, width, bucketIndex))], reduce)
  {
    assert |p| > 0;
    var g := Group(p, width);
    assert bucket == g[|g| - 1] && startSeconds == Key(bucket[0], width) && bucketIndex == |g| - 1;
    assert emitted == MapSeq(reduce, Buckets(g[..|g| - 1], width));
    ReducedSnoc(g, width, reduce);
    var emitted' := emitted + [reduce(Bucket(bucket, startSeconds, width, bucketIndex))];
    assert emitted' == MapSeq(reduce, Buckets(g, width));
    GroupAppend(p, x, width);
    var g' := Group(p + [x], width);
    assert g' == g + [[x]];
    assert g'[..|g'| - 1] == g && g'[|g'| - 1] == [x] && |g'| - 1 == bucketIndex + 1;
  }

  /** A sample in the open bucket's window, or the first sample, joins it. */
  lemma WalkSameBucket<R>(p: seq<Sample>, x: Sample, width: nat, bucket: seq<Sample>, startSeconds: nat, bucketIndex: nat,
                          emitted: seq<R>, reduce: FilledBucket -> R)
    requires width > 0 && Walked(p, width, bucket, startSeconds, bucketIndex, emitted, reduce)
    requires |bucket| == 0 || BucketStart(x.elapsedSeconds, width) == startSeconds
    ensures Walked(p + [x], width, bucket + [x], if |bucket| == 0 then BucketStart(x.elapsedSeconds, width) else startSeconds,
                   bucketIndex, emitted, reduce)
  {
    var g := Group(p, width);
    if |p| == 0 {
      GroupAppend(p, x, width);
    } else {
      GroupExtend(p, x, width);
      assert (g[..|g| - 1] + [g[|g| - 1] + [x]])[..|g| - 1] == g[..|g| - 1];
    }
  }

  /** Closing the open bucket at the end gives the reductions of all runs. */
  lemma WalkEnd<R>(p: seq<Sample>, width: nat, bucket: seq<Sample>, startSeconds: nat, bucketIndex: nat,
                   emitted: seq<R>, reduce: FilledBucket -> R)
    requires width > 0 && Walked(p, width, bucket, startSeconds, bucketIndex, emitted, reduce)
    ensures |bucket| > 0 ==>
      emitted + [reduce(Bucket(bucket, startSeconds, width, bucketIndex))] == MapSeq(reduce, Buckets(Group(p, width), width))
    ensures |bucket| == 0 ==> emitted == MapSeq(reduce, Buckets(Group(p, width), width))
  {
    if |p| > 0 {
      ReducedSnoc(Group(p, width), width, reduce);
    }
  }

  /** The loop's variables: the open bucket, its window start, its number and
      the records emitted so far. */
  datatype WalkState = WalkState(bucket: seq<Sample>, startSeconds: nat, bucketIndex: nat, emitted: seq<AggregatedData>)

  /** One turn of the loop of `aggregateData` on the sample `x`. */
  function Step(st: WalkState, x: Sample, width: nat): WalkState
    requires width > 0
  {
    var expected := BucketStart(x.elapsedSeconds, width);
    if expected != st.startSeconds && |st.bucket| > 0 then
      var closed := ProcessBucket(Bucket(st.bucket, st.startSeconds, width, st.bucketIndex));
      WalkState([x], expected, st.bucketIndex + 1, st.emitted + [closed])
    else
      var bucket := st.bucket + [x];
      WalkState(bucket, if |bucket| == 1 then expected else st.startSeconds, st.bucketIndex, st.emitted)
  }

  /** The loop's variables after the samples `p`. */
  function Walk(p: seq<Sample>, width: nat): WalkState
    requires width > 0
    decreases |p|
  {
    if |p| == 0 then WalkState([], 0, 0, []) else Step(Walk(p[..|p| - 1], width), p[|p| - 1], width)
  }

  /** After the loop: the open bucket, if any, is closed as well. */
  function Finish(st: WalkState, width: nat): seq<AggregatedData> {
    if |st.bucket| > 0 then st.emitted + [ProcessBucket(Bucket(st.bucket, st.startSeconds, width, st.bucketIndex))]
    else st.emitted
  }

  /** The loop keeps the open bucket equal to the last maximal run and has
      emitted the records of all earlier runs. */
  lemma {:induction false} WalkInvariant(p: seq<Sample>, width: nat)
    requires width > 0
    ensures var st := Walk(p, width);
      Walked(p, width, st.bucket, st.startSeconds, st.bucketIndex, st.emitted, ProcessBucket)
    decreases |p|
  {
    if |p| > 0 {
      var q, x := p[..|p| - 1], p[|p| - 1];
      assert p == q + [x];
      WalkInvariant(q, width);
      var st := Walk(q, width);
      if BucketStart(x.elapsedSeconds, width) != st.startSeconds && |st.bucket| > 0 {
        WalkNewBucket(q, x, width, st.bucket, st.startSeconds, st.bucketIndex, st.emitted, ProcessBucket);
      } else {
        WalkSameBucket(q, x, width, st.bucket, st.startSeconds, st.bucketIndex, st.emitted, ProcessBucket);
      }
    }
  }

  /** The loop and the final close compute exactly `aggregateData`'s records. */
  lemma WalkAggregates(data: seq<Sample>, iv: Interval)
    ensures Finish(Walk(data, IntervalSeconds(iv)), IntervalSeconds(iv)) == AggregateData(data, iv)
  {
    var width := IntervalSeconds(iv);
    var st := Walk(data, width);
    WalkInvariant(data, width);
    WalkEnd(data, width, st.bucket, st.startSeconds, st.bucketIndex, st.emitted, ProcessBucket);
  }

  lemma PrefixSnoc<T>(s: seq<T>, i: nat)
    requires i < |s|
    ensures s[..i + 1] == s[..i] + [s[i]]
  {
  }

  /** The loop of `aggregateData` over the samples, with one open bucket. */
  method WalkSamples(data: seq<Sample>, intervalSeconds: nat)
    returns (currentBucket: seq<Sample>, bucketStartSeconds: nat, bucketIndex: nat, aggregated: seq<AggregatedData>)
    requires intervalSeconds > 0
    ensures WalkState(currentBucket, bucketStartSeconds, bucketIndex, aggregated) == Walk(data, intervalSeconds)
  {
    aggregated := [];
    currentBucket := [];
    bucketStartSeconds := 0;
    bucketIndex := 0;
    for i := 0 to |data|
      invariant WalkState(currentBucket, bucketStartSeconds, bucketIndex, aggregated) == Walk(data[..i], intervalSeconds)
    {
      var point := data[i];
      var expectedBucketStart := BucketStart(point.elapsedSeconds, intervalSeconds);
      PrefixSnoc(data, i);
      if expectedBucketStart != bucketStartSeconds && |currentBucket| > 0 {
        var aggregatedPoint := ProcessBucket(Bucket(currentBucket, bucketStartSeconds, intervalSeconds, bucketIndex));
        aggregated := aggregated + [aggregatedPoint];
        currentBucket := [point];
        bucketStartSeconds := expectedBucketStart;
        bucketIndex := bucketIndex + 1;
      } else {
        currentBucket := currentBucket + [point];
        if |currentBucket| == 1 {
          bucketStartSeconds := expectedBucketStart;
        }
      }
    }
    assert data[..|data|] == data;
  }

  /** `aggregateData` as written: the loop, then the last open bucket is
      closed; it computes the same records as the functional definition. */
  method AggregateLoop(data: seq<Sample>, iv: Interval) returns (aggregated: seq<AggregatedData>)
    ensures aggregated == AggregateData(data, iv)
  {
    if |data| == 0 {
      return [];
    }
    var intervalSeconds := IntervalSeconds(iv);
    var currentBucket, bucketStartSeconds, bucketIndex;
    currentBucket, bucketStartSeconds, bucketIndex, aggregated := WalkSamples(data, intervalSeconds);
    WalkAggregates(data, iv);
    if |currentBucket| > 0 {
      var aggregatedPoint := ProcessBucket(Bucket(currentBucket, bucketStartSeconds, intervalSeconds, bucketIndex));
      aggregated := aggregated + [aggregatedPoint];
    }
  }
}

=== FILE: dataprocessing.dfy ===
/** The scale and tick advisor of `src/utils/dataProcessing.tsx`: the labels of
    elapsed times, axis labels for a chosen or automatic scale, the stride
    between axis ticks, tick labels, and the scale a duration calls for.
    Seconds are whole numbers here, as the samples' elapsed seconds are. */
module DataProcessing {
  import opened Wrappers
  import opened Numeric
  import opened Labels
  import opened Text

  /** Whole hours are whole days and the hours of the day. */
  lemma HoursOfDays(seconds: nat)
    ensures seconds / 3600 == seconds / 86400 * 24 + (seconds % 86400) / 3600
    ensures seconds % 3600 == (seconds % 86400) % 3600
  {
  }

  /** Whole minutes are whole hours and the minutes of the hour. */
  lemma MinutesOfHours(seconds: nat)
    ensures seconds / 60 == seconds / 3600 * 60 + (seconds % 3600) / 60
    ensures seconds % 60 == (seconds % 3600) % 60
  {
  }

  /** Days, hours of the day, minutes of the hour and seconds of the minute. */
  lemma DayClock(seconds: nat)
    ensures seconds == seconds / 86400 * 86400 + (seconds % 86400) / 3600 * 3600
                       + (seconds % 3600) / 60 * 60 + seconds % 60
    ensures (seconds % 86400) / 3600 < 24 && (seconds % 3600) / 60 < 60
    ensures seconds / 3600 == seconds / 86400 * 24 + (seconds % 86400) / 3600
    ensures seconds / 60 == seconds / 3600 * 60 + (seconds % 3600) / 60
  {
    HoursOfDays(seconds);
    MinutesOfHours(seconds);
  }

  // ---------------------------------------------------------------------------
  // formatElapsedTime
  // ---------------------------------------------------------------------------

  /** All four fields of an elapsed time: days, hours of the day, minutes of
      the hour and seconds of the minute. */
  function DayClockFields(seconds: nat): (r: seq<Field>)
    ensures |r| == 4 && Seconds(r) == seconds
    ensures r[0] == Field(seconds / 86400, Day, false, true)
    ensures r[1] == Field((seconds % 86400) / 3600, Hour, false, true)
    ensures r[2] == Field((seconds % 3600) / 60, Minute, false, true)
    ensures r[3] == Field(seconds % 60, Second, false, true)
    ensures r[1].value < 24 && r[2].value < 60 && r[3].value < 60
  {
    DayClock(seconds);
    var s := [Field(seconds % 60, Second, false, true)];
    var ms := [Field((seconds % 3600) / 60, Minute, false, true)] + s;
    var hms := [Field((seconds % 86400) / 3600, Hour, false, true)] + ms;
    var dhms := [Field(seconds / 86400, Day, false, true)] + hms;
    assert s[1..] == [] && ms[1..] == s && hms[1..] == ms && dhms[1..] == hms;
    assert Seconds(s) == seconds % 60;
    assert Seconds(ms) == (seconds % 3600) / 60 * 60 + seconds % 60;
    assert Seconds(hms) == (seconds % 86400) / 3600 * 3600 + (seconds % 3600) / 60 * 60 + seconds % 60;
    dhms
  }

  /** The fields of `formatElapsedTime`: the four day-clock fields with the
      leading zero ones dropped, the seconds being kept in any case. */
  function ElapsedFields(seconds: nat): (r: seq<Field>)
    ensures WellFormed(r) && Seconds(r) == seconds
    ensures 1 <= |r| <= 4 && (r[0].value > 0 || |r| == 1)
    ensures r == DayClockFields(seconds)[4 - |r|..]
    ensures forall k :: 0 <= k < 4 - |r| ==> DayClockFields(seconds)[k].value == 0
  {
    DropLeadingZeros(DayClockFields(seconds))
  }

  /** `formatElapsedTime`: "Dd Hh Mm Ss" without its leading zero parts. The
      label reads back as exactly the given seconds. */
  function FormatElapsedTime(seconds: nat): (r: string)
    ensures ReadSeconds(r) == Some(seconds)
  {
    ReadRender(ElapsedFields(seconds), ' ');
    Render(ElapsedFields(seconds), ' ')
  }

  // ---------------------------------------------------------------------------
  // formatTimeLabel
  // ---------------------------------------------------------------------------

  /** The display scales a user can pick: 'auto', 'minutes', 'hours', 'days'. */
  datatype Scale = Auto | Minutes | Hours | Days

  /** The scale `formatTimeLabel` uses: the chosen one, or under 'auto' days
      from two days on, hours from four hours on, and minutes below. */
  function EffectiveScale(seconds: nat, scale: Scale): (r: Scale)
    ensures r != Auto
    ensures scale != Auto ==> r == scale
    ensures scale == Auto ==> (r == Days <==> seconds >= 172800)
    ensures scale == Auto ==> (r == Hours <==> 14400 <= seconds < 172800)
  {
    if scale != Auto then scale
    else if seconds >= 86400 * 2 then Days
    else if seconds >= 3600 * 4 then Hours
    else Minutes
  }

  /** The smallest step a label of the scale can show: the hour for days, the
      minute otherwise. */
  function Resolution(scale: Scale): nat {
    if scale == Days then 3600 else 60
  }

  /** The fields of `formatTimeLabel`. */
  function TimeLabelFields(seconds: nat, scale: Scale): (r: seq<Field>)
    ensures WellFormed(r) && AllMarked(r)
    ensures var g := Resolution(EffectiveScale(seconds, scale)); Seconds(r) == seconds / g * g
    ensures EffectiveScale(seconds, scale) == Days ==>
              |r| <= 2 && r[|r| - 1] == Field((seconds % 86400) / 3600, Hour, false, true)
              && (|r| == 2 <==> seconds >= 86400)
              && (|r| == 2 ==> r[0] == Field(seconds / 86400, Day, false, true))
    ensures EffectiveScale(seconds, scale) == Hours && seconds < 3600 ==>
              r == [Field(seconds / 60, Minute, false, true)]
    ensures EffectiveScale(seconds, scale) == Hours && seconds >= 3600 ==>
              |r| == 2 && r[0] == Field(seconds / 3600, Hour, false, true)
              && r[1] == Field((seconds % 3600) / 60, Minute, false, true)
    ensures EffectiveScale(seconds, scale) == Minutes ==> r == [Field(seconds / 60, Minute, false, true)]
  {
    var days := seconds / 86400;
    var hours := (seconds % 86400) / 3600;
    var minutes := (seconds % 3600) / 60;
    DayClock(seconds);
    var effective := EffectiveScale(seconds, scale);
    if effective == Days then
      var h := [Field(hours, Hour, false, true)];
      assert Seconds(h) == hours * 3600 by {
        assert h[1..] == [];
      }
      if days == 0 then h
      else
        var dh := [Field(days, Day, false, true)] + h;
        assert dh[1..] == h;
        dh
    else if effective == Hours then
      var m := [Field(minutes, Minute, false, true)];
      assert Seconds(m) == minutes * 60 by {
        assert m[1..] == [];
      }
      if hours == 0 && days == 0 then m
      else
        var hm := [Field(days * 24 + hours, Hour, false, true)] + m;
        assert hm[1..] == m;
        hm
    else
      var m := [Field(seconds / 60, Minute, false, true)];
      assert m[1..] == [];
      m
  }

  /** `formatTimeLabel`: the fields joined by spaces. The label reads back as
      the seconds truncated to the hour on the days scale and to the minute on
      the others; under 'auto' the seconds scale is never chosen. */
  function FormatTimeLabel(seconds: nat, scale: Scale): (r: string)
    ensures var g := Resolution(EffectiveScale(seconds, scale)); ReadSeconds(r) == Some(seconds / g * g)
  {
    ReadRender(TimeLabelFields(seconds, scale), ' ');
    Render(TimeLabelFields(seconds, scale), ' ')
  }

  // ---------------------------------------------------------------------------
  // getTickInterval
  // ---------------------------------------------------------------------------

  /** The "nice" tick spacings, in seconds: every whole second up to a minute,
      5, 10, 15 and 30 minutes, 1, 2, 3, 4, 6 and 12 hours, and whole days. */
  predicate IsNice(t: int) {
    || 1 <= t <= 60
    || t in {300, 600, 900, 1800, 3600, 7200, 10800, 14400, 21600, 43200}
    || (t >= 86400 && t % 86400 == 0)
  }

  /** A whole number of days at least `x` days is at least the ceiling. */
  lemma DaysAbove(t: int, x: real)
    requires t >= 86400 && t % 86400 == 0 && t as real >= x * 86400.0
    ensures t >= Ceil(x) * 86400
  {
    var k := t / 86400;
    assert t == k * 86400;
    assert k as real >= x;
  }

  /** The seconds-per-tick of `getTickInterval` snapped up to a nice spacing:
      the least nice spacing not below it. */
  function NiceInterval(secondsPerTick: real): (r: int)
    ensures IsNice(r) && r as real >= secondsPerTick
    ensures forall t :: IsNice(t) && t as real >= secondsPerTick ==> r <= t
  {
    if secondsPerTick >= 86400.0 then
      var d := Ceil(secondsPerTick / 86400.0);
      assert d >= 1;
      assert d * 86400 % 86400 == 0 by {
        MultipleOf(d, 86400);
      }
      forall t | IsNice(t) && t as real >= secondsPerTick
        ensures d * 86400 <= t
      {
        DaysAbove(t, secondsPerTick / 86400.0);
      }
      d * 86400
    else if secondsPerTick >= 3600.0 then
      var hours := secondsPerTick / 3600.0;
      if hours <= 1.0 then 3600
      else if hours <= 2.0 then 2 * 3600
      else if hours <= 3.0 then 3 * 3600
      else if hours <= 4.0 then 4 * 3600
      else if hours <= 6.0 then 6 * 3600
      else if hours <= 12.0 then 12 * 3600
      else 24 * 3600
    else if secondsPerTick >= 60.0 then
      var minutes := secondsPerTick / 60.0;
      if minutes <= 1.0 then 60
      else if minutes <= 5.0 then 5 * 60
      else if minutes <= 10.0 then 10 * 60
      else if minutes <= 15.0 then 15 * 60
      else if minutes <= 30.0 then 30 * 60
      else 60 * 60
    else
      var c := Ceil(secondsPerTick);
      if 1 >= c then 1 else c
  }

  /** Snapping never reverses the order of two spacings. */
  lemma NiceIntervalMonotone(x: real, y: real)
    requires x <= y
    ensures NiceInterval(x) <= NiceInterval(y)
  {
  }

  /** The data points one snapped tick spacing covers: the spacing times
      `dataLength / totalSeconds`. */
  function PointsPerTick(dataLength: nat, totalSeconds: real, maxTicks: real): real
    requires totalSeconds != 0.0 && maxTicks != 0.0
  {
    var target := NiceInterval(totalSeconds / maxTicks);
    var dataPointsPerSecond := dataLength as real / totalSeconds;
    target as real * dataPointsPerSecond
  }

  /** `getTickInterval`: the number of data points that the snapped spacing
      covers, rounded, and at least 1. `totalSeconds` and `maxTicks` are
      divisors in the source; zero is not modelled. */
  function TickInterval(dataLength: nat, totalSeconds: real, maxTicks: real): (r: int)
    requires totalSeconds != 0.0 && maxTicks != 0.0
    ensures r >= 1
    ensures var x := PointsPerTick(dataLength, totalSeconds, maxTicks);
            (r == 1 && x < 1.5) || (r > 1 && r as real - 0.5 <= x < r as real + 0.5)
  {
    AtLeastOneRounded(PointsPerTick(dataLength, totalSeconds, maxTicks))
  }

  /** `Math.max(1, Math.round(x))`: 1 below one and a half, otherwise the
      integer within a half of `x`. */
  function AtLeastOneRounded(x: real): (r: int)
    ensures r >= 1
    ensures (r == 1 && x < 1.5) || (r > 1 && r as real - 0.5 <= x < r as real + 0.5)
  {
    var n := JsRound(x);
    if 1 >= n then 1 else n
  }

  // ---------------------------------------------------------------------------
  // formatTickLabel
  // ---------------------------------------------------------------------------

  /** The smallest step a tick label shows: the hour from a two-day duration
      on, the minute from two hours on, the second below. */
  function TickResolution(totalDuration: real): nat {
    if totalDuration >= 86400.0 * 2.0 then 3600
    else if totalDuration >= 3600.0 * 2.0 then 60
    else 1
  }

  /** The separator of a tick label: a space between days and hours, a colon
      otherwise. */
  function TickSeparator(totalDuration: real): char {
    if totalDuration >= 86400.0 * 2.0 then ' ' else ':'
  }

  /** Long durations: "Dd Hh", a zero part dropped, to the hour. */
  function DayTickFields(seconds: nat): (r: seq<Field>)
    ensures WellFormed(r) && Seconds(r) == seconds / 3600 * 3600
    ensures forall k :: 1 <= k < |r| ==> r[k].value > 0 && !r[k].padded
    ensures Descending(r) && forall f :: f in r ==> f in DayClockFields(seconds)[..2]
    ensures DayClockFields(seconds)[0] in r <==> seconds / 86400 > 0
    ensures DayClockFields(seconds)[1] in r <==> (seconds % 86400) / 3600 > 0 || seconds / 86400 == 0
  {
    var all := DayClockFields(seconds);
    HoursOfDays(seconds);
    var d, h := [all[0]], [all[1]];
    SecondsOne(all[0]);
    SecondsOne(all[1]);
    assert seconds / 3600 * 3600 == all[0].value * 86400 + all[1].value * 3600;
    assert all[0] in all[..2] && all[1] in all[..2];
    if all[0].value == 0 then h
    else if all[1].value == 0 then d
    else
      var dh := d + h;
      assert dh[1..] == h;
      SecondsAppend(d, h);
      dh
  }

  /** Medium durations: "Hh:MMm", the minutes only when non-zero, to the
      minute. */
  function HourTickFields(seconds: nat): (r: seq<Field>)
    ensures WellFormed(r) && Seconds(r) == seconds / 60 * 60
    ensures r[0] == Field(seconds / 3600, Hour, false, true) && |r| <= 2
    ensures |r| == 2 <==> (seconds % 3600) / 60 > 0
    ensures forall k :: 1 <= k < |r| ==> r[k].value > 0 && r[k].padded && r[k].marked && r[k].unit == Minute
  {
    DayClock(seconds);
    var totalHours := seconds / 3600;
    var minutes := (seconds % 3600) / 60;
    var h := [Field(totalHours, Hour, false, true)];
    var m := if minutes > 0 then [Field(minutes, Minute, true, true)] else [];
    assert Seconds(m) == minutes * 60 by {
      if minutes > 0 {
        assert m[1..] == [];
      }
    }
    assert (h + m)[1..] == m;
    h + m
  }

  /** Short durations: "Mm:Ss", the seconds only when non-zero, and "Ss"
      under a minute; exact. */
  function MinuteTickFields(seconds: nat): (r: seq<Field>)
    ensures WellFormed(r) && Seconds(r) == seconds
    ensures seconds >= 60 ==> r[0] == Field(seconds / 60, Minute, false, true)
    ensures seconds < 60 ==> r == [Field(seconds, Second, false, true)]
    ensures |r| <= 2 && (|r| == 2 <==> seconds >= 60 && seconds % 60 > 0)
    ensures forall k :: 1 <= k < |r| ==> r[k].value > 0 && r[k].unit == Second && r[k].marked && !r[k].padded
  {
    var totalMinutes := seconds / 60;
    var secs := seconds % 60;
    var s := if secs > 0 then [Field(secs, Second, false, true)] else [];
    assert Seconds(s) == secs by {
      if secs > 0 {
        assert s[1..] == [];
      }
    }
    if totalMinutes == 0 then
      var z := [Field(secs, Second, false, true)];
      assert z[1..] == [];
      z
    else
      var ms := [Field(totalMinutes, Minute, false, true)] + s;
      assert ms[1..] == s;
      ms
  }

  /** The fields of `formatTickLabel`: "Dd Hh" with a zero part dropped for
      long durations, "Hh:MMm" (minutes only when non-zero) for medium ones
      and "Mm:Ss" (seconds only when non-zero, "Ss" under a minute) for short
      ones. */
  function TickFields(seconds: nat, totalDuration: real): (r: seq<Field>)
    ensures WellFormed(r)
    ensures var g := TickResolution(totalDuration); Seconds(r) == seconds / g * g
    ensures forall k :: 1 <= k < |r| ==> r[k].value > 0
    ensures totalDuration >= 7200.0 ==> forall k :: 1 <= k < |r| ==> r[k].padded == (r[k].unit == Minute)
    ensures totalDuration >= 172800.0 ==> forall k :: 0 <= k < |r| ==> Rank(r[k].unit) >= 2
    ensures 7200.0 <= totalDuration < 172800.0 ==> r[0] == Field(seconds / 3600, Hour, false, true) && |r| <= 2
    ensures totalDuration < 7200.0 ==>
              r[0] == (if seconds >= 60 then Field(seconds / 60, Minute, false, true) else Field(seconds, Second, false, true))
              && |r| <= 2
    ensures totalDuration >= 172800.0 ==> r == DayTickFields(seconds)
    ensures 7200.0 <= totalDuration < 172800.0 ==> r == HourTickFields(seconds)
    ensures totalDuration < 7200.0 ==> r == MinuteTickFields(seconds)
  {
    if totalDuration >= 86400.0 * 2.0 then DayTickFields(seconds)
    else if totalDuration >= 3600.0 * 2.0 then HourTickFields(seconds)
    else
      assert seconds / 1 * 1 == seconds;
      MinuteTickFields(seconds)
  }

  /** `formatTickLabel`. The label reads back as the seconds truncated to the
      tier's resolution: the hour, the minute, or exact seconds. */
  function FormatTickLabel(seconds: nat, totalDuration: real): (r: string)
    ensures var g := TickResolution(totalDuration); ReadSeconds(r) == Some(seconds / g * g)
  {
    ReadRender(TickFields(seconds, totalDuration), TickSeparator(totalDuration));
    Render(TickFields(seconds, totalDuration), TickSeparator(totalDuration))
  }

  /** The start of a short series is labelled "0s". */
  lemma TickLabelAtZero(totalDuration: real)
    requires totalDuration < 7200.0
    ensures FormatTickLabel(0, totalDuration) == "0s"
  {
    var fs := TickFields(0, totalDuration);
    assert fs == [Field(0, Second, false, true)];
    assert NatToString(0) == "0";
    assert RenderField(fs[0]) == "0s";
    assert fs[1..] == [];
    assert RenderAll(fs) == ["0s"];
  }

  // ---------------------------------------------------------------------------
  // determineTimeScale
  // ---------------------------------------------------------------------------

  /** `determineTimeScale`: days from two days on, hours from four hours on,
      minutes from ten minutes on, seconds below. */
  function DetermineTimeScale(totalSeconds: real): (r: Unit)
    ensures r == Day <==> totalSeconds >= 172800.0
    ensures r == Hour <==> 14400.0 <= totalSeconds < 172800.0
    ensures r == Minute <==> 600.0 <= totalSeconds < 14400.0
    ensures r == Second <==> totalSeconds < 600.0
  {
    if totalSeconds >= 86400.0 * 2.0 then Day
    else if totalSeconds >= 3600.0 * 4.0 then Hour
    else if totalSeconds >= 60.0 * 10.0 then Minute
    else Second
  }

  /** A longer duration never calls for a finer scale. */
  lemma DetermineTimeScaleMonotone(a: real, b: real)
    requires a <= b
    ensures Rank(DetermineTimeScale(a)) <= Rank(DetermineTimeScale(b))
  {
  }

  /** The automatic axis scale of `formatTimeLabel` agrees with
      `determineTimeScale` on days and hours and uses minutes for the rest. */
  lemma AutoScaleAgrees(seconds: nat)
    ensures EffectiveScale(seconds, Auto) == Days <==> DetermineTimeScale(seconds as real) == Day
    ensures EffectiveScale(seconds, Auto) == Hours <==> DetermineTimeScale(seconds as real) == Hour
    ensures EffectiveScale(seconds, Auto) == Minutes <==> Rank(DetermineTimeScale(seconds as real)) <= 1
  {
  }
}

=== FILE: inputview.dfy ===
/** The text-to-records step of `src/InputView.tsx`: the uploaded text is cut
    into lines, the first line is dropped as the header, lines that trim to
    nothing are dropped, and every remaining line becomes one record numbered
    from 0, its second, third and fourth comma-separated fields read as cpu,
    memory and connections. Reading the file is left out; `parseFloat` is a
    parameter, `None` standing for the `NaN` it gives on text that is not a
    number. */
module InputView {
  import opened Wrappers
  import opened Text

  /** One parsed line of the upload. */
  datatype Row = Row(index: nat, cpu: real, mem: real, conn: real)

  /** `parseFloat(fields[k]) || 0`: a missing field, text that is not a
      number, and zero all give 0. */
  function FieldNumber(fields: seq<string>, k: nat, parseFloat: string -> Option<real>): real {
    if k < |fields| then parseFloat(fields[k]).GetOr(0.0) else 0.0
  }

  /** One line: the first field (the timestamp) is not read. */
  function ParseLine(line: string, index: nat, parseFloat: string -> Option<real>): Row {
    var fields := Split(line, {','});
    Row(index, FieldNumber(fields, 1, parseFloat), FieldNumber(fields, 2, parseFloat),
        FieldNumber(fields, 3, parseFloat))
  }

  /** `lines.filter(line => line.trim())`: the lines that are not blank, in
      order. */
  function NonBlank(lines: seq<string>): (r: seq<string>)
    ensures |r| <= |lines|
    ensures forall k :: 0 <= k < |r| ==> !IsBlank(r[k])
    decreases |lines|
  {
    if |lines| == 0 then []
    else
      var rest := NonBlank(lines[1..]);
      if Trim(lines[0]) != [] then [lines[0]] + rest else rest
  }

  /** The filter keeps exactly the lines that are not blank. */
  lemma {:induction false} NonBlankKeeps(lines: seq<string>)
    ensures forall l :: l in NonBlank(lines) <==> l in lines && !IsBlank(l)
    decreases |lines|
  {
    if |lines| > 0 {
      NonBlankKeeps(lines[1..]);
      assert forall l :: l in lines <==> l == lines[0] || l in lines[1..];
    }
  }

  lemma {:induction false} NonBlankConcat(a: seq<string>, b: seq<string>)
    ensures NonBlank(a + b) == NonBlank(a) + NonBlank(b)
    decreases |a|
  {
    if |a| == 0 {
      assert a + b == b;
    } else {
      assert (a + b)[0] == a[0];
      assert (a + b)[1..] == a[1..] + b;
      NonBlankConcat(a[1..], b);
    }
  }

  /** The records of the kept lines, numbered in order. */
  function Rows(kept: seq<string>, parseFloat: string -> Option<real>): (r: seq<Row>)
    ensures |r| == |kept|
    ensures forall k :: 0 <= k < |r| ==> r[k].index == k
  {
    seq(|kept|, k requires 0 <= k < |kept| => ParseLine(kept[k], k, parseFloat))
  }

  /** The lines of a CSV text, the header line first. */
  function Lines(text: string): seq<string>
  {
    Split(text, {'\n'})
  }

  /** The `reader.onload` transform. */
  function ParseCsv(text: string, parseFloat: string -> Option<real>): (r: seq<Row>)
    ensures forall k :: 0 <= k < |r| ==> r[k].index == k
  {
    Rows(NonBlank(Lines(text)[1..]), parseFloat)
  }

  /** The first line is a header whatever it says: replacing it changes
      nothing, and text with no line break gives no records. */
  lemma HeaderIgnored(h1: string, h2: string, body: string, parseFloat: string -> Option<real>)
    requires NoneOf(h1, {'\n'}) && NoneOf(h2, {'\n'})
    ensures ParseCsv(h1 + ['\n'] + body, parseFloat) == ParseCsv(h2 + ['\n'] + body, parseFloat)
    ensures ParseCsv(h1, parseFloat) == []
  {
    SplitAfterPiece(h1, '\n', body, {'\n'});
    SplitAfterPiece(h2, '\n', body, {'\n'});
    assert ([h1] + Split(body, {'\n'}))[1..] == Split(body, {'\n'});
    assert ([h2] + Split(body, {'\n'}))[1..] == Split(body, {'\n'});
    SplitNoSeparator(h1, {'\n'});
  }

  /** The lines of `text + "\n" + line` after the header. */
  lemma LinesAppend(text: string, line: string)
    requires NoneOf(line, {'\n'})
    ensures Split(text + ['\n'] + line, {'\n'})[1..] == Split(text, {'\n'})[1..] + [line]
  {
    var lines := Split(text, {'\n'});
    SplitConcat(text, '\n', line, {'\n'});
    SplitNoSeparator(line, {'\n'});
    assert (lines + [line])[1..] == lines[1..] + [line];
  }

  lemma NonBlankSnoc(lines: seq<string>, line: string)
    ensures NonBlank(lines + [line]) == if IsBlank(line) then NonBlank(lines) else NonBlank(lines) + [line]
  {
    NonBlankConcat(lines, [line]);
    assert [line][1..] == [];
    assert NonBlank([line]) == if Trim(line) != [] then [line] else [];
  }

  lemma RowsSnoc(kept: seq<string>, line: string, parseFloat: string -> Option<real>)
    ensures Rows(kept + [line], parseFloat) == Rows(kept, parseFloat) + [ParseLine(line, |kept|, parseFloat)]
  {
    assert forall k :: 0 <= k < |kept| ==> (kept + [line])[k] == kept[k];
  }

  /** Adding a line at the end adds one record for it, numbered after the
      others, when it is not blank, and nothing when it is. */
  lemma AppendLine(text: string, line: string, parseFloat: string -> Option<real>)
    requires NoneOf(line, {'\n'})
    ensures var before := ParseCsv(text, parseFloat);
            ParseCsv(text + ['\n'] + line, parseFloat) ==
              if IsBlank(line) then before else before + [ParseLine(line, |before|, parseFloat)]
  {
    var lines := Split(text, {'\n'})[1..];
    LinesAppend(text, line);
    NonBlankSnoc(lines, line);
    RowsSnoc(NonBlank(lines), line, parseFloat);
  }

  lemma SliceSnoc<T>(s: seq<T>, i: nat, n: nat)
    requires i <= n < |s|
    ensures s[i..n + 1] == s[i..n] + [s[n]]
  {
  }

  /** Counting the non-blank positions `1 <= k < n + 1` adds one to the
      count below `n` exactly when line `n` is not blank. */
  lemma CountSnoc(lines: seq<string>, n: nat)
    requires 1 <= n < |lines|
    ensures |set k: int | 1 <= k < n + 1 && !IsBlank(lines[k])|
            == |set k: int | 1 <= k < n && !IsBlank(lines[k])| + (if IsBlank(lines[n]) then 0 else 1)
  {
    var before := set k: int | 1 <= k < n && !IsBlank(lines[k]);
    var after := set k: int | 1 <= k < n + 1 && !IsBlank(lines[k]);
    if IsBlank(lines[n]) {
      assert after == before;
    } else {
      assert after == before + {n};
    }
  }

  /** The lines among `lines[1..n]` that are not blank, counted by position. */
  lemma {:induction false} NonBlankCountFrom(lines: seq<string>, n: nat)
    requires 1 <= n <= |lines|
    ensures |NonBlank(lines[1..n])| == |set k: int | 1 <= k < n && !IsBlank(lines[k])|
    decreases n
  {
    if n == 1 {
      assert lines[1..n] == [];
    } else {
      NonBlankCountFrom(lines, n - 1);
      SliceSnoc(lines, 1, n - 1);
      NonBlankSnoc(lines[1..n - 1], lines[n - 1]);
      CountSnoc(lines, n - 1);
    }
  }

  /** The number of records is the number of line positions after the first
      whose line is not blank. */
  lemma CountsNonBlankLines(text: string, parseFloat: string -> Option<real>)
    ensures |ParseCsv(text, parseFloat)| == |set k: int | 1 <= k < |Lines(text)| && !IsBlank(Lines(text)[k])|
  {
    var lines := Lines(text);
    NonBlankCountFrom(lines, |lines|);
    assert lines[1..|lines|] == lines[1..];
  }

  /** Every record is read from a non-blank line after the header, and
      carries its own position among the records. */
  lemma RecordsFromLines(text: string, parseFloat: string -> Option<real>, k: nat)
    requires k < |ParseCsv(text, parseFloat)|
    ensures exists j :: 1 <= j < |Lines(text)| && !IsBlank(Lines(text)[j]) && ParseCsv(text, parseFloat)[k] == ParseLine(Lines(text)[j], k, parseFloat)
  {
    var lines := Lines(text);
    var kept := NonBlank(lines[1..]);
    NonBlankKeeps(lines[1..]);
    assert kept[k] in kept;
    var i :| 0 <= i < |lines[1..]| && lines[1..][i] == kept[k];
    var j := i + 1;
    assert lines[j] == kept[k];
    assert ParseCsv(text, parseFloat) == Rows(kept, parseFloat);
    assert 1 <= j < |lines| && !IsBlank(lines[j]) && ParseCsv(text, parseFloat)[k] == ParseLine(lines[j], k, parseFloat);
  }

  /** Two field lists that agree after their first field give the same
      metrics. */
  lemma SameAfterFirst(f1: seq<string>, f2: seq<string>, parseFloat: string -> Option<real>)
    requires |f1| >= 1 && |f2| >= 1 && f1[1..] == f2[1..]
    ensures forall k :: 1 <= k ==> FieldNumber(f1, k, parseFloat) == FieldNumber(f2, k, parseFloat)
  {
    forall k | 1 <= k
      ensures FieldNumber(f1, k, parseFloat) == FieldNumber(f2, k, parseFloat)
    {
      if k < |f1| {
        assert f1[k] == f1[1..][k - 1] == f2[k];
      }
    }
  }

  /** The timestamp field is never read. */
  lemma TimestampIgnored(ts1: string, ts2: string, rest: string, index: nat, parseFloat: string -> Option<real>)
    requires NoneOf(ts1, {','}) && NoneOf(ts2, {','})
    ensures ParseLine(ts1 + [','] + rest, index, parseFloat) == ParseLine(ts2 + [','] + rest, index, parseFloat)
  {
    var t := Split(rest, {','});
    var f1 := Split(ts1 + [','] + rest, {','});
    var f2 := Split(ts2 + [','] + rest, {','});
    SplitAfterPiece(ts1, ',', rest, {','});
    SplitAfterPiece(ts2, ',', rest, {','});
    assert f1[1..] == t == f2[1..];
    SameAfterFirst(f1, f2, parseFloat);
  }

  /** A line with no comma has no metric fields: all three read as 0. */
  lemma MissingFieldsAreZero(line: string, index: nat, parseFloat: string -> Option<real>)
    requires NoneOf(line, {','})
    ensures ParseLine(line, index, parseFloat) == Row(index, 0.0, 0.0, 0.0)
  {
    SplitNoSeparator(line, {','});
  }

  /** A field that does not parse reads as 0. */
  lemma UnparsableIsZero(fields: seq<string>, k: nat, parseFloat: string -> Option<real>)
    requires k < |fields| && parseFloat(fields[k]).None?
    ensures FieldNumber(fields, k, parseFloat) == 0.0
  {
  }
}

=== FILE: labels.dfy ===
/** Time labels such as "1h 0m 5s", "2d 3h", "1h:05" or "3m:7s".

    Every formatter of the source builds its label from a few numbered
    components, each printed as decimal digits (sometimes zero-padded to two
    places) and usually followed by a unit letter, with the components separated
    by a space or a colon. This module describes such a label as a sequence of
    `Field`s, renders it, and gives an independent reader that recovers the
    number of seconds a label denotes. The formatters' contracts are stated
    through that reader. */
module Labels {
  import opened Wrappers
  import opened Text

  datatype Unit = Day | Hour | Minute | Second

  /** A number of units, in seconds. */
  function InSeconds(value: nat, u: Unit): nat {
    match u
    case Day => value * 86400
    case Hour => value * 3600
    case Minute => value * 60
    case Second => value
  }

  /** How coarse a unit is: seconds, minutes, hours, days in that order. */
  function Rank(u: Unit): nat {
    match u
    case Second => 0
    case Minute => 1
    case Hour => 2
    case Day => 3
  }

  function UnitChar(u: Unit): char {
    match u
    case Day => 'd'
    case Hour => 'h'
    case Minute => 'm'
    case Second => 's'
  }

  /** The unit a letter names, if any. */
  function UnitOf(c: char): Option<Unit> {
    if c == 'd' then Some(Day)
    else if c == 'h' then Some(Hour)
    else if c == 'm' then Some(Minute)
    else if c == 's' then Some(Second)
    else None
  }

  /** The next smaller unit; a component printed without a letter ("05" in
      "1h:05") is read in the unit just below the one before it. */
  function Finer(u: Unit): Unit {
    match u
    case Day => Hour
    case Hour => Minute
    case Minute => Second
    case Second => Second
  }

  /** One printed component: its value, its unit, whether its digits are
      padded to two places and whether the unit letter is printed. */
  datatype Field = Field(value: nat, unit: Unit, padded: bool, marked: bool)

  const Separators: set<char> := {' ', ':'}

  function FieldDigits(f: Field): (r: string)
    ensures 1 <= |r| && AllDigits(r) && DigitsValue(r) == f.value
  {
    if f.padded then Pad2(NatToString(f.value)) else NatToString(f.value)
  }

  function RenderField(f: Field): (r: string)
    ensures 1 <= |r| && NoneOf(r, Separators)
  {
    FieldDigits(f) + if f.marked then [UnitChar(f.unit)] else []
  }

  function RenderAll(fs: seq<Field>): (r: seq<string>)
    ensures |r| == |fs|
    ensures forall k :: 0 <= k < |r| ==> 1 <= |r[k]| && NoneOf(r[k], Separators)
    decreases |fs|
  {
    if |fs| == 0 then [] else [RenderField(fs[0])] + RenderAll(fs[1..])
  }

  /** The label text: the rendered fields joined by `sep`. */
  function Render(fs: seq<Field>, sep: char): string {
    Join(RenderAll(fs), sep)
  }

  /** The number of seconds the fields stand for. */
  function Seconds(fs: seq<Field>): nat
    decreases |fs|
  {
    if |fs| == 0 then 0 else InSeconds(fs[0].value, fs[0].unit) + Seconds(fs[1..])
  }

  /** Every field without a letter follows a field whose unit is the next
      larger one, so that a reader can tell its unit (`prev` is the unit of the
      field before the first, if any). */
  predicate ChainedFrom(fs: seq<Field>, prev: Option<Unit>) {
    && (|fs| > 0 ==> fs[0].marked || (prev.Some? && fs[0].unit == Finer(prev.value)))
    && forall k :: 1 <= k < |fs| ==> fs[k].marked || fs[k].unit == Finer(fs[k - 1].unit)
  }

  predicate WellFormed(fs: seq<Field>) {
    |fs| >= 1 && ChainedFrom(fs, None)
  }

  /** Every field prints its unit letter, so any non-empty list is well formed. */
  predicate AllMarked(fs: seq<Field>) {
    forall k :: 0 <= k < |fs| ==> fs[k].marked
  }

  /** The fields without their leading zero-valued ones, the last field being
      kept in any case: "0h 0m 5s" becomes "5s", "1h 0m 0s" stays whole. */
  function DropLeadingZeros(fs: seq<Field>): (r: seq<Field>)
    requires |fs| >= 1
    ensures 1 <= |r| <= |fs| && r == fs[|fs| - |r|..]
    ensures forall k :: 0 <= k < |fs| - |r| ==> fs[k].value == 0
    ensures r[0].value > 0 || |r| == 1
    ensures Seconds(r) == Seconds(fs)
    decreases |fs|
  {
    if |fs| > 1 && fs[0].value == 0 then
      var r := DropLeadingZeros(fs[1..]);
      assert fs[1..][|fs| - 1 - |r|..] == fs[|fs| - |r|..];
      r
    else fs
  }

  /** One field stands for its value in its unit. */
  lemma SecondsOne(f: Field)
    ensures Seconds([f]) == InSeconds(f.value, f.unit)
  {
    assert [f][1..] == [];
  }

  lemma {:induction false} SecondsAppend(a: seq<Field>, b: seq<Field>)
    ensures Seconds(a + b) == Seconds(a) + Seconds(b)
    decreases |a|
  {
    if |a| == 0 {
      assert a + b == b;
    } else {
      assert (a + b)[0] == a[0];
      assert (a + b)[1..] == a[1..] + b;
      SecondsAppend(a[1..], b);
    }
  }

  /** The units strictly coarsen towards the front: days before hours before
      minutes before seconds, each at most once. */
  predicate Descending(fs: seq<Field>) {
    forall i, j :: 0 <= i < j < |fs| ==> Rank(fs[i].unit) > Rank(fs[j].unit)
  }

  /** A field finer than every field of a descending list can follow it. */
  lemma DescendingSnoc(fs: seq<Field>, f: Field)
    requires Descending(fs)
    requires forall k :: 0 <= k < |fs| ==> Rank(fs[k].unit) > Rank(f.unit)
    ensures Descending(fs + [f])
  {
    var r := fs + [f];
    forall i, j | 0 <= i < j < |r|
      ensures Rank(r[i].unit) > Rank(r[j].unit)
    {
      assert r[i] == fs[i];
      if j < |fs| {
        assert r[j] == fs[j];
      }
    }
  }

  /** The fields with a non-zero value, in their order. */
  function DropZeros(fs: seq<Field>): (r: seq<Field>)
    ensures forall k :: 0 <= k < |r| ==> r[k].value > 0
    ensures Seconds(r) == Seconds(fs)
    decreases |fs|
  {
    if |fs| == 0 then []
    else
      var rest := DropZeros(fs[1..]);
      var head := if fs[0].value > 0 then [fs[0]] else [];
      assert Seconds(head) == InSeconds(fs[0].value, fs[0].unit) by {
        if fs[0].value > 0 {
          assert head[1..] == [];
        }
      }
      SecondsAppend(head, rest);
      head + rest
  }

  lemma {:induction false} DropZerosMarked(fs: seq<Field>)
    requires AllMarked(fs)
    ensures AllMarked(DropZeros(fs))
    decreases |fs|
  {
    if |fs| > 0 {
      DropZerosMarked(fs[1..]);
    }
  }

  /** `DropZeros` keeps exactly the non-zero fields. */
  lemma {:induction false} DropZerosKeeps(fs: seq<Field>)
    ensures forall f :: f in DropZeros(fs) <==> f in fs && f.value > 0
    decreases |fs|
  {
    if |fs| > 0 {
      DropZerosKeeps(fs[1..]);
      var head := if fs[0].value > 0 then [fs[0]] else [];
      assert DropZeros(fs) == head + DropZeros(fs[1..]);
      assert forall f :: f in fs <==> f == fs[0] || f in fs[1..];
    }
  }

  /** `DropZeros` keeps no field coarser than the ones it is given. */
  lemma {:induction false} DropZerosBelow(fs: seq<Field>, bound: nat)
    requires forall k :: 0 <= k < |fs| ==> Rank(fs[k].unit) < bound
    ensures forall k :: 0 <= k < |DropZeros(fs)| ==> Rank(DropZeros(fs)[k].unit) < bound
    decreases |fs|
  {
    if |fs| > 0 {
      DropZerosBelow(fs[1..], bound);
    }
  }

  /** `DropZeros` keeps the order of the fields it keeps. */
  lemma {:induction false} DropZerosDescending(fs: seq<Field>)
    requires Descending(fs)
    ensures Descending(DropZeros(fs))
    decreases |fs|
  {
    if |fs| > 0 {
      var tail := fs[1..];
      var rest := DropZeros(tail);
      assert Descending(tail) by {
        forall i, j | 0 <= i < j < |tail|
          ensures Rank(tail[i].unit) > Rank(tail[j].unit)
        {
          assert tail[i] == fs[i + 1] && tail[j] == fs[j + 1];
        }
      }
      DropZerosDescending(tail);
      assert forall k :: 0 <= k < |tail| ==> tail[k] == fs[k + 1];
      DropZerosBelow(tail, Rank(fs[0].unit));
      if fs[0].value > 0 {
        var r := [fs[0]] + rest;
        assert DropZeros(fs) == r;
        forall i, j | 0 <= i < j < |r|
          ensures Rank(r[i].unit) > Rank(r[j].unit)
        {
          assert r[j] == rest[j - 1];
          if i > 0 {
            assert r[i] == rest[i - 1];
          }
        }
      }
    }
  }

  // ---------------------------------------------------------------------------
  // Reading a label back
  // ---------------------------------------------------------------------------

  datatype Token = Token(value: nat, unit: Option<Unit>)

  /** Reads one component: digits, optionally followed by a unit letter. */
  function ReadToken(t: string): Option<Token> {
    if |t| == 0 then None
    else if UnitOf(t[|t| - 1]).Some? then
      var d := t[..|t| - 1];
      if |d| >= 1 && AllDigits(d) then Some(Token(DigitsValue(d), UnitOf(t[|t| - 1]))) else None
    else if AllDigits(t) then Some(Token(DigitsValue(t), None))
    else None
  }

  /** The unit of a component: its letter, or else the unit just below the
      previous component's. */
  function Resolve(tok: Token, prev: Option<Unit>): Option<Unit> {
    if tok.unit.Some? then tok.unit else if prev.Some? then Some(Finer(prev.value)) else None
  }

  /** The seconds a list of components denotes, `prev` being the unit of the
      component before them. */
  function ReadTokens(parts: seq<string>, prev: Option<Unit>): Option<nat>
    decreases |parts|
  {
    if |parts| == 0 then Some(0)
    else
      var tok := ReadToken(parts[0]);
      var u := if tok.Some? then Resolve(tok.value, prev) else None;
      var rest := if u.Some? then ReadTokens(parts[1..], u) else None;
      if rest.Some? then Some(InSeconds(tok.value.value, u.value) + rest.value) else None
  }

  /** The number of seconds a label denotes, or `None` for text that is not a
      label. */
  function ReadSeconds(text: string): Option<nat> {
    ReadTokens(Split(text, Separators), None)
  }

  lemma ReadRenderedField(f: Field)
    ensures ReadToken(RenderField(f)) == Some(Token(f.value, if f.marked then Some(f.unit) else None))
  {
    var d := FieldDigits(f);
    var t := RenderField(f);
    if f.marked {
      assert t[..|t| - 1] == d;
    } else {
      assert t == d;
      assert IsDigit(t[|t| - 1]);
    }
  }

  lemma ChainedTail(fs: seq<Field>, prev: Option<Unit>)
    requires |fs| > 0 && ChainedFrom(fs, prev)
    ensures ChainedFrom(fs[1..], Some(fs[0].unit))
  {
    if |fs| > 1 {
      assert fs[1..][0] == fs[1];
    }
    forall k | 1 <= k < |fs[1..]|
      ensures fs[1..][k].marked || fs[1..][k].unit == Finer(fs[1..][k - 1].unit)
    {
      assert fs[1..][k] == fs[k + 1];
    }
  }

  /** Reading a list of components whose first one reads as `tok` in unit
      `u`. */
  lemma ReadTokensFirst(parts: seq<string>, prev: Option<Unit>, tok: Token, u: Unit, rest: nat, total: nat)
    requires |parts| > 0
    requires ReadToken(parts[0]) == Some(tok) && Resolve(tok, prev) == Some(u)
    requires ReadTokens(parts[1..], Some(u)) == Some(rest)
    requires total == InSeconds(tok.value, u) + rest
    ensures ReadTokens(parts, prev) == Some(total)
  {
  }

  lemma RenderAllFirst(fs: seq<Field>)
    requires |fs| > 0
    ensures RenderAll(fs)[0] == RenderField(fs[0]) && RenderAll(fs)[1..] == RenderAll(fs[1..])
  {
  }

  /** The first field's unit is its letter or the one just below `prev`. */
  lemma ResolveFirst(fs: seq<Field>, prev: Option<Unit>)
    requires |fs| > 0 && ChainedFrom(fs, prev)
    ensures Resolve(Token(fs[0].value, if fs[0].marked then Some(fs[0].unit) else None), prev) == Some(fs[0].unit)
  {
  }

  /** One step of reading rendered fields: the first field, then the rest. */
  lemma ReadRenderedStep(fs: seq<Field>, prev: Option<Unit>)
    requires |fs| > 0 && ChainedFrom(fs, prev)
    requires ReadTokens(RenderAll(fs[1..]), Some(fs[0].unit)) == Some(Seconds(fs[1..]))
    ensures ReadTokens(RenderAll(fs), prev) == Some(Seconds(fs))
  {
    var parts := RenderAll(fs);
    var tok := Token(fs[0].value, if fs[0].marked then Some(fs[0].unit) else None);
    RenderAllFirst(fs);
    ReadRenderedField(fs[0]);
    ResolveFirst(fs, prev);
    assert ReadToken(parts[0]) == Some(tok);
    assert ReadTokens(parts[1..], Some(fs[0].unit)) == Some(Seconds(fs[1..]));
    assert Seconds(fs) == InSeconds(tok.value, fs[0].unit) + Seconds(fs[1..]);
    ReadTokensFirst(parts, prev, tok, fs[0].unit, Seconds(fs[1..]), Seconds(fs));
  }

  lemma {:induction false} ReadRenderedFields(fs: seq<Field>, prev: Option<Unit>)
    requires ChainedFrom(fs, prev)
    ensures ReadTokens(RenderAll(fs), prev) == Some(Seconds(fs))
    decreases |fs|
  {
    if |fs| > 0 {
      ChainedTail(fs, prev);
      ReadRenderedFields(fs[1..], Some(fs[0].unit));
      ReadRenderedStep(fs, prev);
    }
  }

  /** Reading a rendered well-formed label gives back the seconds its fields
      stand for, whichever separator was used. */
  lemma ReadRender(fs: seq<Field>, sep: char)
    requires WellFormed(fs) && sep in Separators
    ensures ReadSeconds(Render(fs, sep)) == Some(Seconds(fs))
  {
    SplitJoin(RenderAll(fs), sep, Separators);
    ReadRenderedFields(fs, None);
  }
}

=== FILE: numeric.dfy ===
/** The numeric building blocks of the source, on exact reals: `Math.ceil`,
    `Math.round`, `parseFloat(x.toFixed(2))`, and the sum, maximum, minimum and
    mean of a non-empty list of values. IEEE-754 binary rounding is not
    modelled: values are exact and rounding to hundredths is idealised. */
module Numeric {

  /** `Math.ceil(x)`: the least integer not below `x`. */
  function Ceil(x: real): (r: int)
    ensures x <= r as real < x + 1.0
  {
    if x.Floor as real == x then x.Floor else x.Floor + 1
  }

  /** `Math.round(x)`: the nearest integer, halves going up. */
  function JsRound(x: real): (r: int)
    ensures x - 0.5 < r as real <= x + 0.5
  {
    (x + 0.5).Floor
  }

  lemma JsRoundMonotone(x: real, y: real)
    requires x <= y
    ensures JsRound(x) <= JsRound(y)
  {
  }

  /** A non-negative value rounded to the nearest hundredth, halves going up. */
  function HundredthsHalfUp(x: real): (r: real)
    requires x >= 0.0
    ensures r >= 0.0
    ensures x - 0.005 < r <= x + 0.005
    ensures r * 100.0 == JsRound(x * 100.0) as real
  {
    JsRound(x * 100.0) as real / 100.0
  }

  /** A whole number of hundredths. */
  predicate IsHundredths(r: real) {
    (r * 100.0).Floor as real == r * 100.0
  }

  lemma NegatedHundredths(h: real)
    requires IsHundredths(h)
    ensures IsHundredths(-h)
  {
    var k := (h * 100.0).Floor;
    assert -h * 100.0 == (-k) as real;
  }

  /** `r` is the whole number of hundredths nearest `x`, a tie going away
      from zero. The half-open window is one hundredth wide, so it holds
      exactly one such `r`. */
  predicate NearestHundredth(r: real, x: real) {
    && IsHundredths(r)
    && (if x >= 0.0 then x - 0.005 < r <= x + 0.005 else x - 0.005 <= r < x + 0.005)
  }

  /** At most one value is the nearest hundredth of `x`. */
  lemma NearestHundredthUnique(r1: real, r2: real, x: real)
    requires NearestHundredth(r1, x) && NearestHundredth(r2, x)
    ensures r1 == r2
  {
    var k1, k2 := (r1 * 100.0).Floor, (r2 * 100.0).Floor;
    assert -1.0 < (k1 - k2) as real < 1.0;
  }

  /** `parseFloat(x.toFixed(2))`: `toFixed` rounds the magnitude to the nearest
      hundredth, halves away from zero, and keeps the sign. The result is a
      whole number of hundredths within half a hundredth of `x`. */
  function ToFixed2(x: real): (r: real)
    ensures NearestHundredth(r, x)
  {
    if x < 0.0 then
      var h := HundredthsHalfUp(-x);
      NegatedHundredths(h);
      -h
    else
      HundredthsHalfUp(x)
  }

  /** An exact tie rounds away from zero: 0.125 becomes 0.13, and -0.125
      becomes -0.13. */
  lemma ToFixed2Ties()
    ensures ToFixed2(0.125) == 0.13
    ensures ToFixed2(-0.125) == -0.13
  {
    NearestHundredthUnique(ToFixed2(0.125), 0.13, 0.125);
    NearestHundredthUnique(ToFixed2(-0.125), -0.13, -0.125);
  }

  /** Rounding to hundredths never reverses the order of two values. */
  lemma ToFixed2Monotone(x: real, y: real)
    requires x <= y
    ensures ToFixed2(x) <= ToFixed2(y)
  {
    if 0.0 <= x {
      JsRoundMonotone(x * 100.0, y * 100.0);
    } else if y < 0.0 {
      JsRoundMonotone(-y * 100.0, -x * 100.0);
    }
  }

  /** A multiple of a positive number leaves no remainder. */
  lemma MultipleOf(q: nat, w: nat)
    requires w > 0
    ensures (q * w) % w == 0
  {
    var a := q * w;
    var d := q - a / w;
    assert a % w == w * d;
    if d > 0 {
      assert false;
    } else if d < 0 {
      assert false;
    }
  }

  // ---------------------------------------------------------------------------
  // Aggregates over a list of values
  // ---------------------------------------------------------------------------

  /** `xs.reduce((a, b) => a + b, 0)`. */
  function Sum(xs: seq<real>): real
    decreases |xs|
  {
    if |xs| == 0 then 0.0 else Sum(xs[..|xs| - 1]) + xs[|xs| - 1]
  }

  /** `Math.max(...xs)` on a non-empty list: a member of the list that no
      member exceeds. */
  function MaxOf(xs: seq<real>): (r: real)
    requires |xs| > 0
    ensures r in xs
    ensures forall i :: 0 <= i < |xs| ==> xs[i] <= r
    decreases |xs|
  {
    if |xs| == 1 then xs[0]
    else
      var m := MaxOf(xs[1..]);
      if xs[0] >= m then xs[0] else m
  }

  /** `Math.min(...xs)` on a non-empty list: a member of the list that no
      member undercuts. */
  function MinOf(xs: seq<real>): (r: real)
    requires |xs| > 0
    ensures r in xs
    ensures forall i :: 0 <= i < |xs| ==> r <= xs[i]
    decreases |xs|
  {
    if |xs| == 1 then xs[0]
    else
      var m := MinOf(xs[1..]);
      if xs[0] <= m then xs[0] else m
  }

  function Mean(xs: seq<real>): (r: real)
    requires |xs| > 0
    ensures r * |xs| as real == Sum(xs)
  {
    Sum(xs) / |xs| as real
  }

  /** A sum of values that all lie in `[lo, hi]` lies between `|xs|` times
      each bound. */
  lemma {:induction false} SumBounds(xs: seq<real>, lo: real, hi: real)
    requires forall i :: 0 <= i < |xs| ==> lo <= xs[i] <= hi
    ensures |xs| as real * lo <= Sum(xs) <= |xs| as real * hi
    decreases |xs|
  {
    if |xs| > 0 {
      var n := |xs|;
      SumBounds(xs[..n - 1], lo, hi);
      assert (n - 1) as real * lo + lo == n as real * lo;
      assert (n - 1) as real * hi + hi == n as real * hi;
    }
  }

  /** The mean of a non-empty list lies between its minimum and maximum. */
  lemma MeanBetween(xs: seq<real>)
    requires |xs| > 0
    ensures MinOf(xs) <= Mean(xs) <= MaxOf(xs)
  {
    MeanWithin(xs, MinOf(xs), MaxOf(xs));
  }

  /** The mean of values that all lie in `[lo, hi]` lies in `[lo, hi]`. */
  lemma MeanWithin(xs: seq<real>, lo: real, hi: real)
    requires |xs| > 0
    requires forall i :: 0 <= i < |xs| ==> lo <= xs[i] <= hi
    ensures lo <= Mean(xs) <= hi
  {
    SumBounds(xs, lo, hi);
    QuotientBounds(Sum(xs), |xs| as real, lo, hi);
  }

  /** A quotient by a positive number exceeds `lo` when the dividend exceeds
      `lo` times the divisor. */
  lemma QuotientAbove(t: real, w: real, lo: real)
    requires w > 0.0 && lo * w < t
    ensures lo < t / w
  {
    var q := t / w;
    assert q * w == t;
    if q <= lo {
      assert false;
    }
  }

  /** A quotient by a positive number is at most `hi` when the dividend is at
      most `hi` times the divisor. */
  lemma QuotientAtMost(t: real, w: real, hi: real)
    requires w > 0.0 && t <= hi * w
    ensures t / w <= hi
  {
    var q := t / w;
    assert q * w == t;
    if q > hi {
      assert false;
    }
  }

  lemma QuotientBounds(s: real, n: real, lo: real, hi: real)
    requires n > 0.0 && n * lo <= s <= n * hi
    ensures lo <= s / n <= hi
  {
  }
}

=== FILE: text.dfy ===
/** The string operations the source relies on: `Number.prototype.toString` on
    non-negative integers, `padStart(2, '0')`, `String.prototype.split` on a
    one-character separator, `Array.prototype.join` and `String.prototype.trim`.
    Strings are sequences of characters; there is no encoding. */
module Text {

  // ---------------------------------------------------------------------------
  // Decimal digits
  // ---------------------------------------------------------------------------

  predicate IsDigit(c: char) {
    '0' <= c <= '9'
  }

  predicate AllDigits(s: string) {
    forall i :: 0 <= i < |s| ==> IsDigit(s[i])
  }

  function DigitValue(c: char): nat
    requires IsDigit(c)
  {
    c as int - '0' as int
  }

  function DigitChar(d: nat): (c: char)
    requires d < 10
    ensures IsDigit(c) && DigitValue(c) == d
  {
    ('0' as int + d) as char
  }

  /** The number a digit string denotes, most significant digit first.
      This is the reference reading against which rendering is checked. */
  function DigitsValue(s: string): nat
    requires AllDigits(s)
    decreases |s|
  {
    if |s| == 0 then 0 else DigitsValue(s[..|s| - 1]) * 10 + DigitValue(s[|s| - 1])
  }

  /** `n.toString()` for a non-negative integer: a non-empty digit string
      without a leading zero that reads back as `n`. */
  function NatToString(n: nat): (r: string)
    ensures 1 <= |r| && AllDigits(r)
    ensures r[0] != '0' || |r| == 1
    ensures DigitsValue(r) == n
    decreases n
  {
    if n < 10 then [DigitChar(n)] else NatToString(n / 10) + [DigitChar(n % 10)]
  }

  /** A leading zero does not change the number a digit string denotes. */
  lemma {:induction false} LeadingZero(s: string)
    ensures AllDigits(s) ==> AllDigits(['0'] + s) && DigitsValue(['0'] + s) == DigitsValue(s)
    decreases |s|
  {
    if |s| > 0 && AllDigits(s) {
      var t := ['0'] + s;
      assert t[..|t| - 1] == ['0'] + s[..|s| - 1];
      LeadingZero(s[..|s| - 1]);
    }
  }

  /** `s.padStart(2, '0')`: strings shorter than two characters are filled with
      zeros on the left; a digit string keeps its value. */
  function Pad2(s: string): (r: string)
    ensures |r| == if |s| >= 2 then |s| else 2
    ensures |s| >= 2 ==> r == s
    ensures r[|r| - |s|..] == s
    ensures forall i :: 0 <= i < |r| - |s| ==> r[i] == '0'
    ensures AllDigits(s) ==> AllDigits(r) && DigitsValue(r) == DigitsValue(s)
  {
    if |s| >= 2 then s
    else if |s| == 1 then LeadingZero(s); ['0'] + s
    else LeadingZero(""); LeadingZero("0"); "00"
  }

  // ---------------------------------------------------------------------------
  // Splitting and joining
  // ---------------------------------------------------------------------------

  predicate NoneOf(s: string, seps: set<char>) {
    forall i :: 0 <= i < |s| ==> s[i] !in seps
  }

  /** `s.split(sep)` generalised to a set of one-character separators: the
      maximal separator-free pieces, in order, including empty ones. */
  function Split(s: string, seps: set<char>): (r: seq<string>)
    ensures |r| >= 1
    ensures forall k :: 0 <= k < |r| ==> NoneOf(r[k], seps)
    decreases |s|
  {
    if |s| == 0 then [""]
    else if s[0] in seps then [""] + Split(s[1..], seps)
    else
      var t := Split(s[1..], seps);
      [[s[0]] + t[0]] + t[1..]
  }

  /** `parts.join(sep)`. */
  function Join(parts: seq<string>, sep: char): string
    decreases |parts|
  {
    if |parts| == 0 then ""
    else if |parts| == 1 then parts[0]
    else parts[0] + [sep] + Join(parts[1..], sep)
  }

  /** Splitting on one character loses nothing: joining the pieces back with
      that character gives the original string. */
  lemma {:induction false} JoinSplit(s: string, sep: char)
    ensures Join(Split(s, {sep}), sep) == s
    decreases |s|
  {
    if |s| > 0 {
      var t := Split(s[1..], {sep});
      JoinSplit(s[1..], sep);
      if s[0] == sep {
        assert Split(s, {sep}) == [""] + t;
        assert ([""] + t)[1..] == t;
      } else if |t| > 1 {
        assert Join(t, sep) == t[0] + [sep] + Join(t[1..], sep);
      }
    }
  }

  /** A separator-free string is a single piece. */
  lemma {:induction false} SplitNoSeparator(t: string, seps: set<char>)
    requires NoneOf(t, seps)
    ensures Split(t, seps) == [t]
    decreases |t|
  {
    if |t| > 0 {
      SplitNoSeparator(t[1..], seps);
      assert [t[0]] + t[1..] == t;
    }
  }

  /** A separator-free piece followed by a separator is split off whole. */
  lemma {:induction false} SplitAfterPiece(t: string, sep: char, rest: string, seps: set<char>)
    requires NoneOf(t, seps) && sep in seps
    ensures Split(t + [sep] + rest, seps) == [t] + Split(rest, seps)
    decreases |t|
  {
    var s := t + [sep] + rest;
    if |t| == 0 {
      assert s[1..] == rest;
    } else {
      assert s[1..] == t[1..] + [sep] + rest;
      SplitAfterPiece(t[1..], sep, rest, seps);
      assert [t[0]] + t[1..] == t;
    }
  }

  /** Joining separator-free pieces and splitting again recovers the pieces. */
  lemma {:induction false} SplitJoin(parts: seq<string>, sep: char, seps: set<char>)
    requires |parts| >= 1 && sep in seps
    requires forall k :: 0 <= k < |parts| ==> NoneOf(parts[k], seps)
    ensures Split(Join(parts, sep), seps) == parts
    decreases |parts|
  {
    if |parts| == 1 {
      SplitNoSeparator(parts[0], seps);
    } else {
      SplitAfterPiece(parts[0], sep, Join(parts[1..], sep), seps);
      SplitJoin(parts[1..], sep, seps);
      assert [parts[0]] + parts[1..] == parts;
    }
  }

  /** Splitting at a separator between two strings splits each of them: the
      pieces of `s + [sep] + t` are those of `s` followed by those of `t`. */
  lemma {:induction false} SplitConcat(s: string, sep: char, t: string, seps: set<char>)
    requires sep in seps
    ensures Split(s + [sep] + t, seps) == Split(s, seps) + Split(t, seps)
    decreases |s|
  {
    var whole := s + [sep] + t;
    if |s| == 0 {
      assert whole[1..] == t;
    } else {
      assert whole[0] == s[0];
      assert whole[1..] == s[1..] + [sep] + t;
      SplitConcat(s[1..], sep, t, seps);
      if s[0] !in seps {
        var a := Split(s[1..], seps);
        assert (a + Split(t, seps))[0] == a[0];
        assert (a + Split(t, seps))[1..] == a[1..] + Split(t, seps);
      }
    }
  }

  // ---------------------------------------------------------------------------
  // Trimming
  // ---------------------------------------------------------------------------

  /** The characters `String.prototype.trim` removes: ECMAScript WhiteSpace and
      LineTerminator (tab, vertical tab, form feed, space, no-break space, the
      byte order mark, the space separators, line feed, carriage return and the
      line and paragraph separators). */
  predicate IsWhitespace(c: char) {
    c in Whitespace
  }

  const Whitespace: set<char> := {
    '\t', '\n', '\U{000B}', '\U{000C}', '\r', ' ', '\U{00A0}', '\U{1680}',
    '\U{2000}', '\U{2001}', '\U{2002}', '\U{2003}', '\U{2004}', '\U{2005}',
    '\U{2006}', '\U{2007}', '\U{2008}', '\U{2009}', '\U{200A}',
    '\U{2028}', '\U{2029}', '\U{202F}', '\U{205F}', '\U{3000}', '\U{FEFF}'
  }

  predicate IsBlank(s: string) {
    forall i :: 0 <= i < |s| ==> IsWhitespace(s[i])
  }

  /** `s` without its longest all-whitespace prefix. */
  function TrimStart(s: string): (r: string)
    ensures |r| <= |s| && r == s[|s| - |r|..]
    ensures forall i :: 0 <= i < |s| - |r| ==> IsWhitespace(s[i])
    ensures |r| == 0 || !IsWhitespace(r[0])
    decreases |s|
  {
    if |s| > 0 && IsWhitespace(s[0]) then TrimStart(s[1..]) else s
  }

  /** `s` without its longest all-whitespace suffix. */
  function TrimEnd(s: string): (r: string)
    ensures |r| <= |s| && r == s[..|r|]
    ensures forall i :: |r| <= i < |s| ==> IsWhitespace(s[i])
    ensures |r| == 0 || !IsWhitespace(r[|r| - 1])
    decreases |s|
  {
    if |s| > 0 && IsWhitespace(s[|s| - 1]) then TrimEnd(s[..|s| - 1]) else s
  }

  /** `s.trim()`: a line is dropped as blank exactly when it trims to the empty
      string, that is, when every character of it is whitespace. */
  function Trim(s: string): (r: string)
    ensures r == [] <==> IsBlank(s)
    ensures |r| > 0 ==> !IsWhitespace(r[0]) && !IsWhitespace(r[|r| - 1])
  {
    TrimEnd(TrimStart(s))
  }
}

=== FILE: timerangeselector.dfy ===
/** The logic of the hour-range selector in `src/TimeRangeSelector.tsx`: the
    search for the record matching a time, the number of hours the data
    spans, and the range state the start, end, reset and quick-select
    controls change, each accepted change reporting the record indices of the
    new range. The records are given by their elapsed seconds; the component
    renders nothing for an empty series, so the series is never empty here. */
module TimeRangeSelector {
  import opened Wrappers
  import opened Numeric
  import opened Labels
  import opened Text

  /** `Math.abs(a - b)`. */
  function Dist(a: int, b: int): nat {
    if a >= b then a - b else b - a
  }

  // ---------------------------------------------------------------------------
  // findIndexBySeconds
  // ---------------------------------------------------------------------------

  /** Some record after the first is at or past the target. */
  predicate SomeReaches(xs: seq<nat>, target: int) {
    exists i :: 1 <= i < |xs| && xs[i] >= target
  }

  /** `r` is the first record after the first one at or past the target. */
  predicate FirstReaching(xs: seq<nat>, target: int, r: nat) {
    && 1 <= r < |xs| && xs[r] >= target
    && forall j :: 1 <= j < r ==> xs[j] < target
  }

  /** `r` is the first record of `xs[..n]` nearest the target. */
  predicate FirstNearest(xs: seq<nat>, target: int, n: nat, r: nat)
    requires n <= |xs|
  {
    && r < n
    && (forall j :: 0 <= j < n ==> Dist(xs[r], target) <= Dist(xs[j], target))
    && (forall j :: 0 <= j < r ==> Dist(xs[r], target) < Dist(xs[j], target))
  }

  /** The loop of `findIndexBySeconds` from record `i` on, `closest` being the
      first record before `i` nearest the target. */
  function Scan(xs: seq<nat>, target: int, i: nat, closest: nat): (r: nat)
    requires 1 <= i <= |xs| && FirstNearest(xs, target, i, closest)
    requires forall j :: 1 <= j < i ==> xs[j] < target
    ensures SomeReaches(xs, target) ==> FirstReaching(xs, target, r)
    ensures !SomeReaches(xs, target) ==> FirstNearest(xs, target, |xs|, r)
    decreases |xs| - i
  {
    if i == |xs| then closest
    else
      var next := if Dist(xs[i], target) < Dist(xs[closest], target) then i else closest;
      if xs[i] >= target then i else Scan(xs, target, i + 1, next)
  }

  /** `findIndexBySeconds`: the first record after the first one that is at
      or past the target; when there is none, the first record nearest the
      target. */
  function FindIndex(xs: seq<nat>, target: int): (r: nat)
    requires |xs| > 0
    ensures r < |xs|
    ensures SomeReaches(xs, target) ==> FirstReaching(xs, target, r)
    ensures !SomeReaches(xs, target) ==> FirstNearest(xs, target, |xs|, r)
  {
    Scan(xs, target, 1, 0)
  }

  /** The loop of `findIndexBySeconds` as written, with its early return. */
  method FindIndexBySeconds(xs: seq<nat>, targetSeconds: int) returns (index: nat)
    requires |xs| > 0
    ensures index == FindIndex(xs, targetSeconds)
  {
    var closestIndex: nat := 0;
    var minDiff := Dist(xs[0], targetSeconds);
    var i := 1;
    while i < |xs|
      invariant 1 <= i <= |xs| && closestIndex < i
      invariant minDiff == Dist(xs[closestIndex], targetSeconds)
      invariant FirstNearest(xs, targetSeconds, i, closestIndex)
      invariant forall j :: 1 <= j < i ==> xs[j] < targetSeconds
      invariant Scan(xs, targetSeconds, i, closestIndex) == FindIndex(xs, targetSeconds)
    {
      var diff := Dist(xs[i], targetSeconds);
      if diff < minDiff {
        minDiff := diff;
        closestIndex := i;
      }
      if xs[i] >= targetSeconds {
        return i;
      }
      i := i + 1;
    }
    return closestIndex;
  }

  predicate Sorted(xs: seq<nat>) {
    forall i, j :: 0 <= i < j < |xs| ==> xs[i] <= xs[j]
  }

  /** The search starts at the second record: on sorted data a target at or
      before the first record still selects record 1, not record 0. */
  lemma FindIndexSkipsFirst(xs: seq<nat>, target: int)
    requires Sorted(xs) && |xs| >= 2 && target <= xs[0]
    ensures FindIndex(xs, target) == 1
  {
    assert xs[1] >= target;
  }

  /** On sorted data a target past the last record selects a record at the
      last record's time (the first such, when several share it). */
  lemma FindIndexPastEnd(xs: seq<nat>, target: int)
    requires Sorted(xs) && |xs| > 0 && target > xs[|xs| - 1]
    ensures xs[FindIndex(xs, target)] == xs[|xs| - 1]
  {
    var r := FindIndex(xs, target);
    assert !SomeReaches(xs, target) by {
      forall i | 1 <= i < |xs|
        ensures xs[i] < target
      {
        assert xs[i] <= xs[|xs| - 1];
      }
    }
    assert Dist(xs[r], target) <= Dist(xs[|xs| - 1], target);
  }

  // ---------------------------------------------------------------------------
  // The hour range
  // ---------------------------------------------------------------------------

  /** `maxHours`: the hours the series spans, rounded up. */
  function MaxHours(xs: seq<nat>): (r: nat)
    requires |xs| > 0
    ensures xs[|xs| - 1] <= r * 3600 < xs[|xs| - 1] + 3600
  {
    var c := Ceil(xs[|xs| - 1] as real / 3600.0);
    assert c as real * 3600.0 >= xs[|xs| - 1] as real;
    c
  }

  datatype Range = Range(startHour: int, endHour: int)

  /** A call of `onRangeChange`: the indices of the first and last record of
      the selected range. */
  datatype Report = Report(startIndex: nat, endIndex: nat)

  /** The state after a control and what it reports, if anything. */
  datatype Outcome = Outcome(range: Range, report: Option<Report>)

  /** The values the number inputs hand over: `parseInt` of the text, which
      may fail. */
  datatype Event =
    | StartTyped(parsed: Option<int>)
    | EndTyped(parsed: Option<int>)
    | ResetPressed
    | QuickSelect(hours: nat)

  /** `parseInt(text) || 0`: a failed parse starts at hour 0. */
  function StartValue(parsed: Option<int>): (r: int)
    ensures parsed.None? ==> r == 0
    ensures parsed.Some? ==> r == parsed.value
  {
    if parsed.Some? && parsed.value != 0 then parsed.value else 0
  }

  /** `parseInt(text) || maxHours`: a failed parse, and also a typed 0, ends
      at the last hour. */
  function EndValue(parsed: Option<int>, maxHours: nat): (r: int)
    ensures parsed == Some(0) ==> r == maxHours
    ensures parsed.None? ==> r == maxHours
    ensures parsed.Some? && parsed.value != 0 ==> r == parsed.value
  {
    if parsed.Some? && parsed.value != 0 then parsed.value else maxHours
  }

  /** The range the component starts with: everything. */
  function InitialRange(xs: seq<nat>): Range
    requires |xs| > 0
  {
    Range(0, MaxHours(xs))
  }

  /** The indices reported for a range. */
  function ReportFor(xs: seq<nat>, startHour: int, endHour: int): (r: Report)
    requires |xs| > 0
    ensures r.startIndex < |xs| && r.endIndex < |xs|
  {
    Report(FindIndex(xs, startHour * 3600), FindIndex(xs, endHour * 3600))
  }

  /** `handleStartChange`: a start after the end is ignored. */
  function StartChange(xs: seq<nat>, range: Range, value: int): Outcome
    requires |xs| > 0
  {
    if value <= range.endHour then
      Outcome(Range(value, range.endHour), Some(ReportFor(xs, value, range.endHour)))
    else Outcome(range, None)
  }

  /** `handleEndChange`: an end before the start is ignored. */
  function EndChange(xs: seq<nat>, range: Range, value: int): Outcome
    requires |xs| > 0
  {
    if value >= range.startHour then
      Outcome(Range(range.startHour, value), Some(ReportFor(xs, range.startHour, value)))
    else Outcome(range, None)
  }

  /** One control event. */
  function Step(xs: seq<nat>, range: Range, e: Event): (o: Outcome)
    requires |xs| > 0
    ensures range.startHour <= range.endHour ==> o.range.startHour <= o.range.endHour
    ensures o.report.Some? ==> o.report.value.startIndex < |xs| && o.report.value.endIndex < |xs|
    ensures o.report.None? ==> o.range == range
    ensures e.StartTyped? ==> (o.report.Some? <==> StartValue(e.parsed) <= range.endHour)
    ensures e.StartTyped? && o.report.Some? ==> o.range == Range(StartValue(e.parsed), range.endHour)
    ensures e.EndTyped? ==> (o.report.Some? <==> EndValue(e.parsed, MaxHours(xs)) >= range.startHour)
    ensures e.EndTyped? && o.report.Some? ==> o.range == Range(range.startHour, EndValue(e.parsed, MaxHours(xs)))
    ensures (e.StartTyped? || e.EndTyped?) && o.report.Some? ==>
              o.report.value == ReportFor(xs, o.range.startHour, o.range.endHour)
    ensures e.ResetPressed? ==> o == Outcome(InitialRange(xs), Some(Report(0, |xs| - 1)))
    ensures e.QuickSelect? ==> o.range.startHour == 0 && o.report.Some? && o.report.value.startIndex == 0
    ensures e.QuickSelect? ==> o.range.endHour == if e.hours <= MaxHours(xs) then e.hours else MaxHours(xs)
    ensures e.QuickSelect? ==> o.report == Some(Report(0, FindIndex(xs, o.range.endHour * 3600)))
  {
    var maxHours := MaxHours(xs);
    match e
    case StartTyped(p) => StartChange(xs, range, StartValue(p))
    case EndTyped(p) => EndChange(xs, range, EndValue(p, maxHours))
    case ResetPressed => Outcome(Range(0, maxHours), Some(Report(0, |xs| - 1)))
    case QuickSelect(h) =>
      var endHour := if h <= maxHours then h else maxHours;
      Outcome(Range(0, endHour), Some(Report(0, FindIndex(xs, endHour * 3600))))
  }

  /** The range after a sequence of events, and every report made. */
  function Run(xs: seq<nat>, range: Range, events: seq<Event>): (o: (Range, seq<Report>))
    requires |xs| > 0
    decreases |events|
  {
    if |events| == 0 then (range, [])
    else
      var first := Step(xs, range, events[0]);
      var rest := Run(xs, first.range, events[1..]);
      (rest.0, (if first.report.Some? then [first.report.value] else []) + rest.1)
  }

  /** Whatever the user does, the start hour never passes the end hour and
      every reported index is a record of the series. */
  lemma {:induction false} RunKeepsRange(xs: seq<nat>, range: Range, events: seq<Event>)
    requires |xs| > 0 && range.startHour <= range.endHour
    ensures var (r, reports) := Run(xs, range, events);
            && r.startHour <= r.endHour
            && forall k :: 0 <= k < |reports| ==> reports[k].startIndex < |xs| && reports[k].endIndex < |xs|
    decreases |events|
  {
    if |events| > 0 {
      var first := Step(xs, range, events[0]);
      RunKeepsRange(xs, first.range, events[1..]);
    }
  }

  /** The component's own start satisfies the range invariant. */
  lemma InitialRangeOrdered(xs: seq<nat>)
    requires |xs| > 0
    ensures InitialRange(xs).startHour <= InitialRange(xs).endHour
    ensures InitialRange(xs).endHour * 3600 >= xs[|xs| - 1]
  {
  }

  // ---------------------------------------------------------------------------
  // formatDuration
  // ---------------------------------------------------------------------------

  /** `formatDuration` on the whole hours a range spans: "Nh", and "0h" for
      an empty range; a whole number of hours has no minutes part. */
  function FormatHours(hours: nat): (r: string)
    ensures r == NatToString(hours) + "h"
    ensures ReadSeconds(r) == Some(hours * 3600)
  {
    var fs := [Field(hours, Hour, false, true)];
    assert fs[1..] == [];
    ReadRender(fs, ' ');
    Render(fs, ' ')
  }

  /** No time at all is "0h", with no minutes part. */
  lemma FormatHoursZero()
    ensures FormatHours(0) == "0h"
  {
    assert NatToString(0) == "0";
  }

  /** The "Duration:" caption: `formatDuration(endHour - startHour)`. On the
      ordered ranges the selector keeps, it names the hours from start to end
      and reads back as that many hours. */
  function DurationLabel(range: Range): (r: string)
    requires range.startHour <= range.endHour
    ensures r == NatToString(range.endHour - range.startHour) + "h"
    ensures ReadSeconds(r) == Some((range.endHour - range.startHour) * 3600)
  {
    FormatHours(range.endHour - range.startHour)
  }
}

=== FILE: timescaleselector.dfy ===
/** The logic of the scale selector in `src/TimeScaleSelector.tsx`: which
    display scales are offered for a duration, and the duration label shown
    beside them. */
module TimeScaleSelector {
  import opened Wrappers
  import opened Labels
  import opened DataProcessing

  /** One entry of the scale drop-down; `title` is the source's `label`. */
  datatype ScaleOption = ScaleOption(value: Scale, title: string, disabled: bool)

  predicate Offers(options: seq<ScaleOption>, s: Scale) {
    exists k :: 0 <= k < |options| && options[k].value == s
  }

  /** `availableScales`: 'auto' and 'minutes' always, 'hours' from half an
      hour on, 'days' from twelve hours on; none disabled and none twice. */
  function AvailableScales(totalSeconds: real): (r: seq<ScaleOption>)
    ensures 2 <= |r| <= 4
    ensures r[0] == ScaleOption(Auto, "Auto", false) && r[1] == ScaleOption(Minutes, "Minutes", false)
    ensures Offers(r, Hours) <==> totalSeconds >= 1800.0
    ensures Offers(r, Days) <==> totalSeconds >= 43200.0
    ensures Offers(r, Days) ==> r[2].value == Hours && r[3].value == Days
    ensures Offers(r, Hours) ==> r[2] == ScaleOption(Hours, "Hours", false)
    ensures Offers(r, Days) ==> r[3] == ScaleOption(Days, "Days", false)
    ensures forall k :: 0 <= k < |r| ==> !r[k].disabled
    ensures forall i, j :: 0 <= i < j < |r| ==> r[i].value != r[j].value
  {
    var scales := [ScaleOption(Auto, "Auto", false)];
    var scales := scales + [ScaleOption(Minutes, "Minutes", false)];
    var scales := if totalSeconds >= 1800.0 then scales + [ScaleOption(Hours, "Hours", false)] else scales;
    var scales := if totalSeconds >= 43200.0 then scales + [ScaleOption(Days, "Days", false)] else scales;
    assert totalSeconds >= 1800.0 ==> scales[2].value == Hours;
    assert totalSeconds >= 43200.0 ==> scales[3].value == Days;
    scales
  }

  /** A longer duration offers every scale a shorter one does. */
  lemma AvailableScalesGrow(a: real, b: real, s: Scale)
    requires a <= b && Offers(AvailableScales(a), s)
    ensures Offers(AvailableScales(b), s)
  {
    if s == Auto {
      assert AvailableScales(b)[0].value == Auto;
    } else if s == Minutes {
      assert AvailableScales(b)[1].value == Minutes;
    }
  }

  /** The parts of `formatDuration`: the day, hour and minute fields that are
      not zero, then the seconds when they are not zero or nothing else is. */
  function DurationFields(seconds: nat): (r: seq<Field>)
    ensures WellFormed(r) && Seconds(r) == seconds
  {
    var all := DayClockFields(seconds);
    var parts := DropZeros(all[..3]);
    DurationSplit(all);
    DropZerosMarked(all[..3]);
    if all[3].value > 0 || |parts| == 0 then
      SecondsAppend(parts, [all[3]]);
      parts + [all[3]]
    else
      parts
  }

  /** The seconds of four fields are those of the first three and the last. */
  lemma DurationSplit(all: seq<Field>)
    requires |all| == 4
    ensures Seconds(all) == Seconds(all[..3]) + InSeconds(all[3].value, all[3].unit)
    ensures Seconds([all[3]]) == InSeconds(all[3].value, all[3].unit)
  {
    assert all == all[..3] + [all[3]];
    SecondsAppend(all[..3], [all[3]]);
    assert [all[3]][1..] == [];
  }

  /** The duration parts go from days down to seconds. */
  lemma DurationDescending(seconds: nat)
    ensures Descending(DurationFields(seconds))
  {
    var all := DayClockFields(seconds);
    var parts := DropZeros(all[..3]);
    assert Descending(all[..3]);
    DropZerosDescending(all[..3]);
    if all[3].value > 0 || |parts| == 0 {
      DropZerosKeeps(all[..3]);
      assert forall k :: 0 <= k < |parts| ==> parts[k] in all[..3];
      assert forall f :: f in all[..3] ==> Rank(f.unit) >= 1;
      DescendingSnoc(parts, all[3]);
    }
  }

  /** Each day, hour and minute part is shown exactly when it is not zero. */
  lemma DurationShowsNonZero(seconds: nat)
    ensures var all := DayClockFields(seconds);
            forall k :: 0 <= k < 3 ==> (all[k] in DurationFields(seconds) <==> all[k].value > 0)
  {
    var all := DayClockFields(seconds);
    var parts := DropZeros(all[..3]);
    DropZerosKeeps(all[..3]);
    assert forall k :: 0 <= k < 3 ==> all[k] in all[..3] && all[k] != all[3];
  }

  /** The seconds are shown when they are not zero or when no other part
      is. */
  lemma DurationShowsSeconds(seconds: nat)
    ensures var all := DayClockFields(seconds);
            all[3] in DurationFields(seconds) <==>
              seconds % 60 > 0 || forall k :: 0 <= k < 3 ==> all[k].value == 0
  {
    var all := DayClockFields(seconds);
    var parts := DropZeros(all[..3]);
    DropZerosKeeps(all[..3]);
    assert all[3] !in all[..3];
    assert |parts| == 0 <==> forall k :: 0 <= k < 3 ==> all[k].value == 0 by {
      if |parts| > 0 {
        assert parts[0] in all[..3];
      } else {
        assert forall k :: 0 <= k < 3 ==> all[k] in all[..3];
      }
    }
  }

  /** Every part is one of the four fields of the elapsed time. */
  lemma DurationFromClock(seconds: nat)
    ensures forall f :: f in DurationFields(seconds) ==> f in DayClockFields(seconds)
  {
    var all := DayClockFields(seconds);
    DropZerosKeeps(all[..3]);
  }

  /** Each day, hour and minute part is shown exactly when it is not zero; the
      seconds are shown when they are not zero or when no other part is; the
      parts go from days down to seconds. */
  lemma DurationParts(seconds: nat)
    ensures var r := DurationFields(seconds);
            && Descending(r)
            && (forall k :: 0 <= k < 3 ==> (DayClockFields(seconds)[k] in r <==> DayClockFields(seconds)[k].value > 0))
            && (DayClockFields(seconds)[3] in r <==>
                  seconds % 60 > 0 || forall k :: 0 <= k < 3 ==> DayClockFields(seconds)[k].value == 0)
            && (forall f :: f in r ==> f in DayClockFields(seconds))
  {
    DurationDescending(seconds);
    DurationShowsNonZero(seconds);
    DurationShowsSeconds(seconds);
    DurationFromClock(seconds);
  }

  /** `formatDuration`: the parts joined by single spaces. The label reads
      back as exactly the given seconds. */
  function FormatDuration(seconds: nat): (r: string)
    ensures ReadSeconds(r) == Some(seconds)
  {
    ReadRender(DurationFields(seconds), ' ');
    Render(DurationFields(seconds), ' ')
  }

  /** No time at all is shown as "0s". */
  lemma FormatDurationZero()
    ensures FormatDuration(0) == "0s"
  {
    var fs := DurationFields(0);
    var all := DayClockFields(0);
    assert fs == [all[3]];
    assert RenderField(all[3]) == "0s";
    assert fs[1..] == [];
  }
}

=== FILE: wrappers.dfy ===
/** The optional value used throughout the model: `None` stands for JavaScript's
    `undefined` and for a `NaN` produced by a failed parse. */
module Wrappers {

  datatype Option<+T> = None | Some(value: T) {

    /** The value, or `default` when there is none (JavaScript's `x || default`
        once `x` is known not to be a falsy number). */
    function GetOr(default: T): T {
      match this
      case Some(v) => v
      case None => default
    }
  }
}
